=== FILE: README.md ===
# Pool shot engine — a Dafny model

This project models the shot-geometry engine of `poollib`, a tool that
recommends pool shots from a photo of a table. Everything before the engine
is image processing and is not modelled: perspective correction, ball
detection and colour clustering. The model starts from balls already
detected, placed on a logical 1000 × 2000 table and given a type. The
engine's steps are:

- enumerate 90 candidate shots per target ball: for each of six pockets, a
  direct shot and two target banks, and for each of those three ghost-ball
  positions a direct cue path plus four cue banks off the cushions U, R, D, L;
- build each shot;
- discard obstructed, thin-cut or pocket-mouth shots;
- rank the rest and keep the best three.

The model also covers the rule that turns a ball's dominant colour and
colour ratio into its type.

## Modelling choices

- Coordinates are `int`. Edge points and ghost points are `real`. They are
  truncated toward zero (`Geometry.Trunc`, Python's `int()`) before they
  become path endpoints.
- A ball's centre is a `real` pair. `get_coordinates` truncates it.
- Floating point is modelled as exact `real` arithmetic.
- `math.sqrt`, `math.dist`, `math.hypot`, `acos`, `degrees` and `round` come
  from an `Oracle` value:
  - `sqrt` is the nonnegative square root;
  - `degrees` maps a cosine in [-1, 1] into [0, 180].

  Every distance comparison is also restated exactly, on squared distances.
- A division by zero is `Err(DivisionByZero)`. It happens in `get_ghost`
  when the target sits on its aim point, and in `get_cut_angle` when a
  vector has zero length. The error propagates the way the exception does.
- Functions that mutate a list in place return the new value instead.
  `get_best_shots` returns a pair: the recommendations, and the caller's
  list after the `del` statements. A `Table` is a value holding the balls
  and the shots.

Four behaviours of the code that the model reproduces as written:

- A degenerate direction raises `ZeroDivisionError`. Nothing in the engine
  catches it, so it aborts all of `get_shots` and `calculate_shots`, not
  only the one candidate; the program's top-level handler (main.py:50-53)
  prints it and the run ends (`Enumeration.GetShots`, `PoolTable.CalculateShots`).
- When `find_edge_point` finds no reflection point, `Shot` builds a direct
  path in its place (poollib/Shot.py:10, 25). The candidate is not dropped,
  so there are always 90 shots per target.
- `find_edge_point` intersects the aim at the mirrored destination with
  the cushion line whatever side the two points are on. When they lie on
  opposite sides the returned point is where the path crosses the line,
  not a bounce (`Reflection.Reflects`, `Reflection.ReflectsBounces`).
- The corner exclusion zones of `is_edge_possible` are quadrants, e.g.
  `x < 50 and y < 50`. They are not boxes centred on the pockets, and only
  the segment's first point is tested (`Filters.InMouth`).

## Model

| member | source | states |
|---|---|---|
| `Geometry.Trunc` | poollib/Ball.py:13-14 | `int()` truncates toward zero: the result is within one of the input and on the zero side of it, for both signs |
| `Geometry.TruncOddAndExact` | poollib/Shot.py:12-13 | truncation commutes with negation and leaves integers unchanged |
| `Geometry.Norm` | poollib/shot_init.py:16 | the vector length is nonnegative, its square is dx² + dy², and it is zero exactly for the zero vector |
| `Geometry.SqrtBelow` | poollib/shots_calculations.py:143 | a distance is below a limit iff the limit is positive and the squared distance is below the limit squared |
| `Layout.PocketTable` | poollib/shots_calculations.py:10-17 | there are six pockets, with pairwise distinct positions and labels |
| `Layout.CushionLines` | poollib/shots_calculations.py:19-23 | U and D are horizontal at y = 40 and y = 1960, R and L are vertical at x = 960 and x = 40, and all four are proper segments |
| `Layout.BankSidesAvoidPocket` | poollib/shots_calculations.py:33-51 | the two bank cushions of each pocket differ, and neither passes through the pocket, so the mirrored pocket never coincides with it |
| `Reflection.Mirror` | poollib/shots_calculations.py:85-88 | definition only: the destination mirrored across a horizontal or vertical cushion line |
| `Reflection.MirrorInvolution` | poollib/shots_calculations.py:85-88 | mirroring twice gives the point back, and a point is its own mirror iff it lies on the cushion line |
| `Reflection.FindEdgePoint` | poollib/shots_calculations.py:72-117 | for a horizontal cushion no point is returned iff the start-to-mirror direction has no vertical but some horizontal change; for a vertical one iff it has no horizontal change (so a zero direction gives a point on a horizontal cushion and none on a vertical one); a returned point is on the aim line and on the cushion line |
| `Reflection.EdgePointIsIntersection` | poollib/shots_calculations.py:105-115 | the returned point is the only point on both the cushion line and the aiming line |
| `Reflection.EdgePointReflects` | poollib/shots_calculations.py:85-117 | the point is on the cushion line and the outgoing line is the mirror image of the incoming one: the path start → point → end is aimed as a reflection at the cushion |
| `Reflection.ReflectsBounces` | poollib/shots_calculations.py:85-117 | when start and end lie strictly on the same side of the cushion line, a path aimed as a reflection bounces: the motion across the cushion reverses and the motion along it keeps its direction |
| `ShotInit.GetGhost` | poollib/shot_init.py:8-24 | fails iff target and aim point coincide; otherwise the ghost is exactly 46 from the target, on the aim line, on the side away from the aim point |
| `ShotInit.Clamp` | poollib/shot_init.py:55 | `max(-1, min(1, x))` lies in [-1, 1] and leaves a value already there unchanged |
| `ShotInit.CosineInRange` | poollib/shot_init.py:48-55 | dot product over the product of the lengths lies in [-1, 1] (Cauchy–Schwarz), so the clamp never changes it |
| `ShotInit.GetCutAngle` | poollib/shot_init.py:28-61 | fails iff the cue's final approach or the target's first segment has zero length; otherwise the angle is in [0, 180] and is the angle of the unclamped cosine of the second cue segment (first when direct) and the first target segment |
| `Balls.CalculateType` | poollib/categorize.py:74-96 | white iff ratio < 1.1 and s < 80; otherwise black iff v < 80; otherwise stripe iff ratio < 2.0; otherwise solid |
| `Balls.HueIgnored` | poollib/categorize.py:80-96 | the hue never changes the type |
| `Balls.InfiniteRatio` | poollib/categorize.py:58 | an infinite ratio (no white pixels) gives black or solid, never white or stripe |
| `Balls.WhiteBeforeBlack` | poollib/categorize.py:83-92 | a dark ball that passes the white test is white |
| `Balls.KindNameInjective` | poollib/categorize.py:89-96 | the four type names are distinct and none is "all" |
| `Balls.Ball.Coordinates` | poollib/Ball.py:13-14 | each coordinate is the centre truncated toward zero: within one of it, on the zero side, for both signs |
| `Shots.Shot.Ghost` | poollib/Shot.py:45-46 | each coordinate is the ghost-ball position truncated toward zero: within one of it, on the zero side, for both signs |
| `Shots.BuildPath` | poollib/Shot.py:10-19 | the path runs from the first point to the last; it is banked iff an edge point is given, and its two segments then meet at the truncated edge point |
| `Shots.TotalLength` | poollib/Shot.py:15-19 | a sum of segment lengths is nonnegative, and zero iff every segment is a single point |
| `Shots.TotalLengthAppend` | poollib/Shot.py:40 | lengths add up over concatenated segment lists |
| `Shots.PathLength` | poollib/Shot.py:30-34 | a path's length is the total length of its one or two segments |
| `Shots.MakeShot` | poollib/Shot.py:5-40 | fails iff the target sits on its aim point or the cue's final approach starts on the truncated ghost; otherwise both paths are well formed, the ghost comes from the first target segment, the angle is the oracle's `degrees` of the cosine between the cue's final approach and the target's first segment (so in [0, 180]), and the length is the total over all 2 to 4 segments |
| `Enumeration.EdgePoint` | poollib/shots_calculations.py:67 | on a table cushion, a found point is on the cushion line and the outgoing line from it is the mirror image of the incoming one; no point is found iff the aim is parallel to the cushion (for a horizontal cushion: no vertical but some horizontal change of the aim) |
| `Enumeration.TargetEdges` | poollib/shots_calculations.py:33-51 | three target aims per pocket: the first is direct; a found second or third aim point is a point on the line of the pocket's first or second bank cushion at which the path from the target to the pocket is aimed as a reflection (a bounce only when target and pocket are on the same side of that line, see `Reflection.ReflectsBounces`) |
| `Enumeration.CueBankShotFacts` | poollib/shots_calculations.py:66-68 | a cue-bank shot fails iff its geometry is degenerate; otherwise it is well formed with that cushion's cue edge point, and it has the aim's target path and ghost position |
| `Enumeration.CueBanks` | poollib/shots_calculations.py:64-68 | one shot per cushion in U, R, D, L order, each the shot built with that cushion's cue edge point; fails iff building one of them fails |
| `Enumeration.AimShots` | poollib/shots_calculations.py:58-68 | a successful build gives five shots per target aim |
| `Enumeration.AimShotsFails` | poollib/shots_calculations.py:58-68 | building one aim's shots fails iff the target sits on its aim point or one of the five cue approaches starts on the ghost position |
| `Enumeration.AimShotsBase` | poollib/shots_calculations.py:58-62 | the five shots of one aim share the target path and the ghost position, and the first has a direct cue path |
| `Enumeration.AimShotsAreBanks` | poollib/shots_calculations.py:65-68 | shots 1 to 4 of an aim are the cue-bank shots off U, R, D, L towards the aim's ghost position |
| `Enumeration.AimShotsBanks` | poollib/shots_calculations.py:65-68 | shots 1 to 4 of an aim bank the cue ball off U, R, D, L towards the aim's ghost position |
| `Enumeration.PocketShots` | poollib/shots_calculations.py:27-68 | a successful build gives 15 shots per pocket |
| `Enumeration.PocketShotsFails` | poollib/shots_calculations.py:27-68 | a pocket's build fails iff one of its three target aims fails |
| `Enumeration.PocketShotsOrder` | poollib/shots_calculations.py:29-68 | direct, bank 1 and bank 2 come first, then the four cue banks of each of the three aims in turn |
| `Enumeration.GetShots` | poollib/shots_calculations.py:9-70 | definition only: the six pockets' blocks concatenated in pocket order; `GetShotsFails` and `GetShotsOrder` state its contract |
| `Enumeration.GetShotsFails` | poollib/shots_calculations.py:9-70 | the generation for a target fails iff some pocket's shots fail |
| `Enumeration.GetShotsOrder` | poollib/shots_calculations.py:27 | 90 shots, with pocket i's 15 shots at positions 15i to 15i + 14, pockets in the order UL, UR, CL, CR, LL, LR |
| `Collecting.MapAll` | poollib/shots_calculations.py:65-68 | building one shot per item fails iff some item fails; otherwise there is one result per item, in item order |
| `Collecting.Collect` | poollib/Table.py:105-107 | extending a list in a loop fails iff some item's generation fails |
| `Collecting.CollectChunks` | poollib/Table.py:107 | with a fixed width per item, item i's outputs occupy slice [width·i, width·i + width) |
| `Filters.Clamp01` | poollib/shots_calculations.py:127 | the clamped parameter lies in [0, 1] and equals the input when the input already does |
| `Filters.BallShotDistSq` | poollib/shots_calculations.py:119-132 | the squared distance is nonnegative, at most the squared distance to either endpoint, zero when the point is an endpoint, and the endpoint distance for a single-point segment |
| `Filters.BallShotDist` | poollib/shots_calculations.py:124-132 | the distance is nonnegative and its square is `BallShotDistSq` |
| `Filters.NearestIsNearest` | poollib/shots_calculations.py:126-132 | the clamped projection is the nearest point of the segment: no parameter in [0, 1] is closer |
| `Filters.IsShotBlocked` | poollib/shots_calculations.py:134-146 | blocked iff some ball not at either endpoint lies closer than 2r − 2 |
| `Filters.BlocksBySquares` | poollib/shots_calculations.py:142-143 | a ball blocks iff it is off the endpoints, 2r − 2 > 0, and its squared distance is below (2r − 2)² |
| `Filters.EndpointBallsNeverBlock` | poollib/shots_calculations.py:139-140 | balls on the endpoints (and an empty ball list) never block |
| `Filters.BallOnSegmentBlocks` | poollib/shots_calculations.py:141-144 | a ball lying on the segment off its ends blocks whenever r > 1 |
| `Filters.IsEdgePossible` | poollib/shots_calculations.py:148-164 | feasible iff the first point is in none of the six pocket-mouth zones |
| `Filters.PocketsInfeasible` | poollib/shots_calculations.py:151-162 | a segment starting at any pocket position is infeasible |
| `Filters.FeasiblePoints` | poollib/shots_calculations.py:163-164 | (500, 1000) is feasible, and so is every point with x = 50 |
| `Filters.OnlyStartMatters` | poollib/shots_calculations.py:149 | the segment's end point never changes the answer |
| `Ordering.DeleteAt` | poollib/shots_calculations.py:190 | deleting one entry leaves the rest in order |
| `Ordering.FilterCounts` | poollib/Table.py:121-135 | keeping the entries that pass a test keeps every copy of a passing value and none of any other |
| `Ordering.FilterSubsequence` | poollib/Table.py:121-135 | keeping the entries that pass a test keeps them in order |
| `Ordering.FilterExtremes` | poollib/Table.py:121-137 | a test every entry passes keeps the whole list, and one none passes keeps nothing |
| `Ranking.Factor` | poollib/shots_calculations.py:184 | definition only: `((180 - angle) * 300 + length) * multiplier`; `FactorBounds`, `FactorMonotone` and `FewerBanksBetter` state its properties |
| `Ranking.Multiplier` | poollib/shots_calculations.py:176-182 | the penalty is 1, 4 or 8 for 0, 1 or 2 banked paths |
| `Ranking.FactorBounds` | poollib/shots_calculations.py:184 | the score of a well-formed shot is nonnegative and at least its length times the penalty |
| `Ranking.FactorMonotone` | poollib/shots_calculations.py:184 | with equal bank counts, a wider angle and a shorter path never score worse |
| `Ranking.FewerBanksBetter` | poollib/shots_calculations.py:177-184 | with equal angle and length and a positive base score, fewer banks score strictly better |
| `Ranking.Min` | poollib/shots_calculations.py:188 | the minimum is an element and is at most every element |
| `Ranking.IndexOf` | poollib/shots_calculations.py:188 | `index` returns the first position holding the value |
| `Ranking.MinIndex` | poollib/shots_calculations.py:188 | the position holds a lowest score, and every earlier position scores strictly higher |
| `Ranking.MinIndexIsIndexOfMin` | poollib/shots_calculations.py:188 | the one-pass lowest position equals `index(min(...))`, the first position of the minimum |
| `Ranking.SelectBest` | poollib/shots_calculations.py:187-191 | n shots are taken; chosen plus left over is a permutation of the input; the chosen scores are nondecreasing and none exceeds a left-over score |
| `Ranking.FirstChoice` | poollib/shots_calculations.py:188-189 | the first shot chosen is the earliest one with the lowest score |
| `Ranking.PicksChoice` | poollib/shots_calculations.py:187-191 | in the pick-by-pick reference, pick k is the single pick from the list the first k picks left |
| `Ranking.SelectBestIsPicks` | poollib/shots_calculations.py:187-191 | the selection equals the reference: its chosen shots are the picks, and what it leaves is the list after them |
| `Ranking.EachChoice` | poollib/shots_calculations.py:187-191 | every pick k, not only the first, is the earliest lowest-scoring shot of the list as the first k picks left it |
| `Ranking.GetBestShotsChoice` | poollib/shots_calculations.py:187-191 | each of the three recommendations is the earliest lowest-scoring shot left by the picks before it |
| `Ranking.GetBestShotsDisplaced` | poollib/shots_calculations.py:187-191 | a shot that occurs more often in the input than among the recommendations scores no better than any recommendation |
| `Ranking.SelectBestLeftInOrder` | poollib/shots_calculations.py:190-191 | what is left of the caller's list after the deletions keeps its order |
| `Ranking.GetBestShots` | poollib/shots_calculations.py:166-193 | up to 3 shots come back unchanged, with the caller's list intact; otherwise exactly 3, sorted by score, a permutation together with what is left, none scoring worse than a left-over shot |
| `Ranking.GetBestShotsLeftInOrder` | poollib/shots_calculations.py:190 | the caller's list stays in order |
| `PoolTable.FirstWhite` | poollib/Table.py:98 | the cue ball is the first ball typed "white"; there is none iff no ball is typed "white" |
| `PoolTable.TargetKinds` | poollib/Table.py:106 | "all" selects every ball not known to be white; a kind's name selects exactly that kind; "white" selects nothing |
| `PoolTable.Targets` | poollib/Table.py:105-106 | the targets are exactly the listed balls that pass the filter |
| `PoolTable.TargetsCounts` | poollib/Table.py:105-106 | each ball that passes the filter is kept as many times as it is listed, any other ball not at all |
| `PoolTable.TargetsInOrder` | poollib/Table.py:105-106 | the targets keep the order of the ball list |
| `PoolTable.CalculateShots` | poollib/Table.py:91-109 | no balls or no cue ball leaves the table unchanged; otherwise it fails iff some target's generation fails, and on success it keeps the balls and only appends shots |
| `PoolTable.CalculateShotsLayout` | poollib/Table.py:105-107 | 90 new shots per target, with target i's shots at offset 90i past the old ones |
| `PoolTable.ShotLines` | poollib/Table.py:123-129 | validation checks exactly the 2 to 4 segments of the two paths |
| `PoolTable.SegmentClear` | poollib/Table.py:131-132 | a segment passes iff every ball off its ends is at least 44 from it and it starts outside every pocket mouth |
| `PoolTable.IsValid` | poollib/Table.py:123-134 | definition only: no listed segment blocked with radius 23, angle above 120, every listed segment edge-feasible; `ValidMeans` restates it on exact distances |
| `PoolTable.ValidMeans` | poollib/Table.py:123-134 | a shot is valid iff its angle exceeds 120 and every segment of both paths is clear |
| `PoolTable.ValidateShots` | poollib/Table.py:111-138 | an empty list is left alone; a shot is kept iff it is valid; the balls do not change |
| `PoolTable.ValidateShotsCounts` | poollib/Table.py:111-138 | each valid shot is kept as many times as it occurs, an invalid one not at all |
| `PoolTable.ValidateShotsInOrder` | poollib/Table.py:121-137 | the kept shots are an order-preserving sublist of the input |
| `PoolTable.ValidateShotsIdempotent` | poollib/Table.py:121-137 | validating twice gives the same result as once |
| `PoolTable.CalculateBestShots` | poollib/Table.py:140-149 | an empty list, or up to 3 shots, is left alone; afterwards there are min(n, 3) shots, drawn from the old ones, and when more than 3 were given they are sorted by score |
| `PoolTable.BestShotsAreBest` | poollib/Table.py:148 | every recommendation scores no worse than any shot it displaced |

## Left out

- Image loading, perspective correction, normalisation, ball detection,
  colour clustering and drawing. These are all foreign-library image work.
  The model starts from detected, typed balls.
- `categorize` and `calculate_color` (KMeans, HSV conversion): only the
  decision rule `calculate_type` is modelled. It takes the ratio as a
  finite value or infinity.
- Console output and progress dots. They have no effect on the state.
- Floating-point rounding. Arithmetic is exact, and `sqrt` and the
  acos/degrees/round chain are abstract functions with the properties
  named above. `ShotInit.GetCutAngle` therefore pins the angle only to
  `degrees` of the cosine, not to a numeric value.
- `PoolTable.CalculateShots`: on an error the model returns only the
  error. It does not model the partly extended shot list that the
  interrupted loop leaves behind.
- `Enumeration.PocketShots` builds the three aim shots and their cue banks
  aim by aim, while the program builds all three aim shots first. Every
  failure is the same division by zero, so the outcome is the same.
- `Ranking.SelectBest` recomputes the scores of the shortened list at each
  step. The program deletes from a parallel list of scores, which stays
  aligned with the shots.
- `Reflection.EdgePointReflects`: promises a path aimed as a reflection,
  not a bounce. A bounce is promised only when start and end lie strictly
  on the same side of the cushion line (`Reflection.ReflectsBounces`),
  because the program returns the crossing point otherwise.
- `find_edge_point` on a cushion that is neither horizontal nor vertical.
  It cannot happen with the fixed table, and the program would fail on an
  unbound variable before computing anything.

=== FILE: balls.dfy ===
/** Balls on the logical table and the rule that assigns each ball its type
    from the dominant colour of its image patch. */
module Balls {
  import opened Geometry

  /** The four ball types the classifier can produce. */
  datatype BallKind = White | Black | Stripe | Solid

  /** The type names the rest of the program compares against. */
  function KindName(k: BallKind): string {
    match k
    case White => "white"
    case Black => "black"
    case Stripe => "stripe"
    case Solid => "solid"
  }

  /** Distinct types have distinct names, and no type is called "all". */
  lemma KindNameInjective(a: BallKind, b: BallKind)
    ensures KindName(a) == KindName(b) <==> a == b
    ensures KindName(a) != "all"
  {
  }

  /** Coloured-to-white pixel ratio of a ball; it is infinite when no pixel
      falls in the whitest colour cluster. */
  datatype Ratio = Finite(value: real) | Infinite

  /** `ratio < bound` for a Python float that may be `inf`. */
  predicate Below(ratio: Ratio, bound: real) {
    ratio.Finite? && ratio.value < bound
  }

  const BlackThresholdV: int := 80
  const WhiteThresholdS: int := 80
  const WhiteThresholdRatio: real := 1.1
  const FullThresholdRatio: real := 2.0

  /** `calculate_type`: classify by (h, s, v) and the colour ratio. A ball is
      white when it is mostly white and unsaturated; otherwise black when
      dark; otherwise a stripe when its colour covers less than twice the
      white area; otherwise solid. */
  function CalculateType(h: int, s: int, v: int, ratio: Ratio): (k: BallKind)
    ensures k == White <==> Below(ratio, WhiteThresholdRatio) && s < WhiteThresholdS
    ensures k == Black <==> !(Below(ratio, WhiteThresholdRatio) && s < WhiteThresholdS) && v < BlackThresholdV
    ensures k == Stripe <==>
              && !(Below(ratio, WhiteThresholdRatio) && s < WhiteThresholdS)
              && BlackThresholdV <= v
              && Below(ratio, FullThresholdRatio)
    ensures k == Solid <==>
              && !(Below(ratio, WhiteThresholdRatio) && s < WhiteThresholdS)
              && BlackThresholdV <= v
              && !Below(ratio, FullThresholdRatio)
  {
    var black := v < BlackThresholdV;
    var white := s < WhiteThresholdS;
    if Below(ratio, WhiteThresholdRatio) && white then White
    else if black then Black
    else if Below(ratio, FullThresholdRatio) then Stripe
    else Solid
  }

  /** The hue plays no part in the decision. */
  lemma HueIgnored(h1: int, h2: int, s: int, v: int, ratio: Ratio)
    ensures CalculateType(h1, s, v, ratio) == CalculateType(h2, s, v, ratio)
  {
  }

  /** An infinite ratio (no white pixels at all) is never classified as the
      cue ball or as a stripe. */
  lemma InfiniteRatio(h: int, s: int, v: int)
    ensures CalculateType(h, s, v, Infinite) in {Black, Solid}
  {
  }

  /** White takes precedence over black: a dark ball that passes the white
      test is still white. */
  lemma WhiteBeforeBlack(h: int, s: int, v: int, ratio: Ratio)
    requires Below(ratio, WhiteThresholdRatio) && s < WhiteThresholdS && v < BlackThresholdV
    ensures CalculateType(h, s, v, ratio) == White
  {
  }

  /** A detected ball: centre in logical table coordinates (not necessarily
      integral) and its type, `None` until it has been categorised. */
  datatype Ball = Ball(x: real, y: real, kind: Option<BallKind>) {
    /** `get_coordinates`: the centre truncated toward zero. */
    function Coordinates(): (p: Point)
      ensures 0.0 <= x ==> p.x as real <= x < p.x as real + 1.0
      ensures 0.0 <= y ==> p.y as real <= y < p.y as real + 1.0
      ensures x < 0.0 ==> p.x as real - 1.0 < x <= p.x as real
      ensures y < 0.0 ==> p.y as real - 1.0 < y <= p.y as real
    {
      TruncPoint(RPoint(x, y))
    }

    /** `get_type() == name`, where an uncategorised ball has no name. */
    predicate HasType(name: string) {
      kind.Some? && KindName(kind.value) == name
    }
  }
}

=== FILE: collect.dfy ===
/** Running a fallible generator over a list and concatenating its outputs,
    as the program does with `list.extend` inside a loop: the first failure
    aborts the whole loop. */
module Collecting {
  import opened Geometry

  /** `gen(items[0]) + gen(items[1]) + ...`, or the failure of the first
      item whose generation fails. */
  function Collect<T, U>(gen: T -> Result<seq<U>>, items: seq<T>): (r: Result<seq<U>>)
    ensures r.Err? <==> exists i :: 0 <= i < |items| && gen(items[i]).Err?
  {
    if items == [] then
      Ok([])
    else
      var first :- gen(items[0]);
      var rest :- Collect(gen, items[1..]);
      assert forall i :: 1 <= i < |items| ==> items[i] == items[1..][i - 1];
      Ok(first + rest)
  }

  /** `[f(items[0]), f(items[1]), ...]`, or the failure of the first item
      for which `f` fails. */
  function MapAll<T, U>(f: T -> Result<U>, items: seq<T>): (r: Result<seq<U>>)
    ensures r.Err? <==> exists i :: 0 <= i < |items| && f(items[i]).Err?
    ensures r.Ok? ==> |r.value| == |items|
    ensures r.Ok? ==> forall i :: 0 <= i < |items| ==> f(items[i]).Ok? && r.value[i] == f(items[i]).value
  {
    if items == [] then
      Ok([])
    else
      var first :- f(items[0]);
      var rest :- MapAll(f, items[1..]);
      assert forall i :: 1 <= i < |items| ==> items[i] == items[1..][i - 1];
      Ok([first] + rest)
  }

  /** Every item yields exactly `width` outputs. */
  predicate Uniform<T, U>(gen: T -> Result<seq<U>>, items: seq<T>, width: nat) {
    forall j :: 0 <= j < |items| && gen(items[j]).Ok? ==> |gen(items[j]).value| == width
  }

  lemma {:induction false} CollectLength<T, U>(gen: T -> Result<seq<U>>, items: seq<T>, width: nat)
    requires Collect(gen, items).Ok? && Uniform(gen, items, width)
    ensures |Collect(gen, items).value| == width * |items|
  {
    if items != [] {
      assert forall j :: 0 <= j < |items[1..]| ==> items[1..][j] == items[j + 1];
      CollectLength(gen, items[1..], width);
      assert width * |items| == width + width * |items[1..]|;
    }
  }

  /** When every item yields exactly `width` outputs, item `i`'s outputs sit at
      positions `width * i` up to `width * (i + 1)` of the result. */
  lemma {:induction false} CollectChunks<T, U>(gen: T -> Result<seq<U>>, items: seq<T>, width: nat, i: nat)
    requires Collect(gen, items).Ok? && Uniform(gen, items, width)
    requires i < |items|
    ensures gen(items[i]).Ok?
    ensures width * i + width <= |Collect(gen, items).value|
    ensures Collect(gen, items).value[width * i .. width * i + width] == gen(items[i]).value
  {
    CollectLength(gen, items, width);
    var first := gen(items[0]).value;
    var rest := Collect(gen, items[1..]).value;
    assert Collect(gen, items).value == first + rest;
    if i > 0 {
      assert forall j :: 0 <= j < |items[1..]| ==> items[1..][j] == items[j + 1];
      CollectChunks(gen, items[1..], width, i - 1);
      var off := width * (i - 1);
      assert width * i == width + off;
      SliceAfter(first, rest, off, width);
    }
  }

  /** The chunks of `Collect` keep their places after a prefix. */
  lemma {:induction false} CollectAfter<T, U>(prefix: seq<U>, gen: T -> Result<seq<U>>, items: seq<T>, width: nat, i: nat)
    requires Collect(gen, items).Ok? && Uniform(gen, items, width)
    requires i < |items|
    ensures gen(items[i]).Ok?
    ensures |prefix + Collect(gen, items).value| == |prefix| + width * |items|
    ensures width * i + width <= |Collect(gen, items).value|
    ensures (prefix + Collect(gen, items).value)[|prefix| + width * i .. |prefix| + width * i + width]
         == gen(items[i]).value
  {
    var all := Collect(gen, items).value;
    var off := width * i;
    CollectLength(gen, items, width);
    CollectChunks(gen, items, width, i);
    assert off + width <= |all|;
    SliceAfter(prefix, all, off, width);
  }

  /** A slice of `a + b` that starts after `a` is a slice of `b`. */
  lemma SliceAfter<U>(a: seq<U>, b: seq<U>, off: nat, width: nat)
    requires off + width <= |b|
    ensures (a + b)[|a| + off .. |a| + off + width] == b[off .. off + width]
  {
  }
}

=== FILE: enumeration.dfy ===
/** Candidate generation for one target ball: for each of the six pockets a
    direct shot, two shots banking the target off the pocket's two bank
    cushions, and, for each of those three ghost-ball positions, four shots
    banking the cue ball off the cushions U, R, D, L. */
module Enumeration {
  import opened Geometry
  import opened Layout
  import opened Reflection
  import opened ShotInit
  import opened Balls
  import opened Shots
  import opened Collecting

  /** `find_edge_point` on one of the table's cushions. A point found is
      aimed as a reflection (see `Reflects`); no point is found exactly when the aiming line
      runs parallel to the cushion. */
  function EdgePoint(side: Side, start: Point, end: Point): (r: Option<RPoint>)
    ensures Proper(CushionOf(side))
    ensures r.Some? ==> Reflects(CushionOf(side), ToReal(start), r.value, ToReal(end))
    ensures Horizontal(CushionOf(side)) ==>
              (r.None? <==> AimY(CushionOf(side), start, end) == 0 && AimX(CushionOf(side), start, end) != 0)
    ensures !Horizontal(CushionOf(side)) ==> (r.None? <==> AimX(CushionOf(side), start, end) == 0)
  {
    CushionLines(side);
    var e := FindEdgePoint(CushionOf(side), start, end);
    if e.Some? then
      EdgePointReflects(CushionOf(side), start, end);
      e
    else
      e
  }

  /** The target-ball cushion points for a pocket, in generation order: none
      (direct), then a point on the line of each of the pocket's two bank
      cushions at which the path from the target to the pocket is aimed as a
      reflection; it bounces only when target and pocket lie on the same side
      of that line (`ReflectsBounces`). */
  function TargetEdges(target: Ball, hole: Pocket): (r: seq<Option<RPoint>>)
    ensures |r| == 3 && r[0].None?
    ensures r[1].Some? ==>
              Reflects(CushionOf(BankSides(hole.code).0), ToReal(target.Coordinates()), r[1].value, ToReal(hole.pos))
    ensures r[2].Some? ==>
              Reflects(CushionOf(BankSides(hole.code).1), ToReal(target.Coordinates()), r[2].value, ToReal(hole.pos))
  {
    var t := target.Coordinates();
    [None, EdgePoint(BankSides(hole.code).0, t, hole.pos), EdgePoint(BankSides(hole.code).1, t, hole.pos)]
  }

  /** The shot banking the cue ball off cushion `side` towards `aimAt`. */
  function CueBankShot(o: Oracle, white: Ball, target: Ball, hole: Pocket, edgeTarget: Option<RPoint>,
                       aimAt: Point, side: Side): Result<Shot>
    requires o.Valid()
  {
    MakeShot(o, white, target, hole, edgeTarget, EdgePoint(side, white.Coordinates(), aimAt))
  }

  /** What `MakeShot` promises, for a cue-bank shot. */
  lemma CueBankShotFacts(o: Oracle, white: Ball, target: Ball, hole: Pocket, edgeTarget: Option<RPoint>,
                         aimAt: Point, side: Side)
    requires o.Valid()
    ensures var r := CueBankShot(o, white, target, hole, edgeTarget, aimAt, side);
            var edgeWhite := EdgePoint(side, white.Coordinates(), aimAt);
            && (r.Err? <==> Degenerate(o, white, target, hole, edgeTarget, edgeWhite))
            && (r.Ok? ==> WellFormed(o, r.value, white, target, hole, edgeTarget, edgeWhite))
            && (r.Ok? ==> r.value.target == BuildPath(target.Coordinates(), edgeTarget, hole.pos))
            && (r.Ok? ==> r.value.Ghost() == GhostOf(o, target, hole, edgeTarget))
  {
  }

  /** `CueBankShot` as a function of the cushion alone. */
  function BankGen(o: Oracle, white: Ball, target: Ball, hole: Pocket, edgeTarget: Option<RPoint>,
                   aimAt: Point): Side -> Result<Shot>
    requires o.Valid()
  {
    (side: Side) => CueBankShot(o, white, target, hole, edgeTarget, aimAt, side)
  }

  /** The cue-bank shots towards one ghost position, one per cushion of
      `sides`, in order. */
  function CueBanks(o: Oracle, white: Ball, target: Ball, hole: Pocket, edgeTarget: Option<RPoint>,
                    aimAt: Point, sides: seq<Side>): (r: Result<seq<Shot>>)
    requires o.Valid()
    ensures r.Err? <==>
              exists k :: 0 <= k < |sides| && CueBankShot(o, white, target, hole, edgeTarget, aimAt, sides[k]).Err?
    ensures r.Ok? ==> |r.value| == |sides|
    ensures r.Ok? ==> forall k :: 0 <= k < |sides| ==>
              && CueBankShot(o, white, target, hole, edgeTarget, aimAt, sides[k]).Ok?
              && r.value[k] == CueBankShot(o, white, target, hole, edgeTarget, aimAt, sides[k]).value
  {
    var gen := BankGen(o, white, target, hole, edgeTarget, aimAt);
    assert forall k :: 0 <= k < |sides| ==> gen(sides[k]) == CueBankShot(o, white, target, hole, edgeTarget, aimAt, sides[k]);
    MapAll(gen, sides)
  }

  /** Building the shots for one target aim fails: the target sits on its aim
      point, or the cue ball's final approach to the resulting ghost position
      has zero length, directly or off one of the four cushions. */
  predicate AimFails(o: Oracle, white: Ball, target: Ball, hole: Pocket, edgeTarget: Option<RPoint>)
    requires o.Valid()
  {
    var g := GhostOf(o, target, hole, edgeTarget);
    || AimPoint(hole, edgeTarget) == target.Coordinates()
    || white.Coordinates() == g
    || exists k :: 0 <= k < |Sides| && CueStart(white, EdgePoint(Sides[k], white.Coordinates(), g)) == g
  }

  /** The five shots built around one target aim: the shot with a direct
      cue path, then the cue banks off U, R, D, L towards its ghost position. */
  function AimShots(o: Oracle, white: Ball, target: Ball, hole: Pocket, edgeTarget: Option<RPoint>): (r: Result<seq<Shot>>)
    requires o.Valid()
    ensures r.Ok? ==> |r.value| == 5
  {
    var base :- MakeShot(o, white, target, hole, edgeTarget, None);
    var banks :- CueBanks(o, white, target, hole, edgeTarget, base.Ghost(), Sides);
    Ok([base] + banks)
  }

  /** The shots around one target aim fail to build iff `AimFails`. */
  lemma AimShotsFails(o: Oracle, white: Ball, target: Ball, hole: Pocket, edgeTarget: Option<RPoint>)
    requires o.Valid()
    ensures AimShots(o, white, target, hole, edgeTarget).Err? <==> AimFails(o, white, target, hole, edgeTarget)
  {
  }

  /** The five shots around one target aim share the target path and the
      ghost position; the first has a direct cue path. */
  lemma AimShotsBase(o: Oracle, white: Ball, target: Ball, hole: Pocket, edgeTarget: Option<RPoint>)
    requires o.Valid()
    requires AimShots(o, white, target, hole, edgeTarget).Ok?
    ensures var shots := AimShots(o, white, target, hole, edgeTarget).value;
            && WellFormed(o, shots[0], white, target, hole, edgeTarget, None)
            && (forall k :: 0 <= k < 5 ==>
                  && shots[k].target == BuildPath(target.Coordinates(), edgeTarget, hole.pos)
                  && shots[k].Ghost() == GhostOf(o, target, hole, edgeTarget))
  {
    var shots := AimShots(o, white, target, hole, edgeTarget).value;
    var base := MakeShot(o, white, target, hole, edgeTarget, None).value;
    var g := base.Ghost();
    var banks := CueBanks(o, white, target, hole, edgeTarget, g, Sides).value;
    assert shots == [base] + banks;
    forall k | 0 <= k < 5
      ensures shots[k].target == BuildPath(target.Coordinates(), edgeTarget, hole.pos)
      ensures shots[k].Ghost() == GhostOf(o, target, hole, edgeTarget)
    {
      if k > 0 {
        CueBankShotFacts(o, white, target, hole, edgeTarget, g, Sides[k - 1]);
        assert shots[k] == banks[k - 1];
      }
    }
  }

  /** Shots 1 to 4 around one target aim bank the cue ball off U, R, D, L in
      turn towards the aim's ghost position. */
  lemma AimShotsBanks(o: Oracle, white: Ball, target: Ball, hole: Pocket, edgeTarget: Option<RPoint>)
    requires o.Valid()
    requires AimShots(o, white, target, hole, edgeTarget).Ok?
    ensures var shots := AimShots(o, white, target, hole, edgeTarget).value;
            forall k :: 1 <= k < 5 ==>
              WellFormed(o, shots[k], white, target, hole, edgeTarget,
                         EdgePoint(Sides[k - 1], white.Coordinates(), GhostOf(o, target, hole, edgeTarget)))
  {
    var shots := AimShots(o, white, target, hole, edgeTarget).value;
    var g := GhostOf(o, target, hole, edgeTarget);
    AimShotsAreBanks(o, white, target, hole, edgeTarget);
    forall k | 1 <= k < 5
      ensures WellFormed(o, shots[k], white, target, hole, edgeTarget,
                         EdgePoint(Sides[k - 1], white.Coordinates(), g))
    {
      CueBankShotFacts(o, white, target, hole, edgeTarget, g, Sides[k - 1]);
    }
  }

  /** Shots 1 to 4 around one target aim are the cue-bank shots off U, R, D,
      L towards the aim's ghost position. */
  lemma AimShotsAreBanks(o: Oracle, white: Ball, target: Ball, hole: Pocket, edgeTarget: Option<RPoint>)
    requires o.Valid()
    requires AimShots(o, white, target, hole, edgeTarget).Ok?
    ensures var shots := AimShots(o, white, target, hole, edgeTarget).value;
            var g := GhostOf(o, target, hole, edgeTarget);
            forall k :: 1 <= k < 5 ==>
              && CueBankShot(o, white, target, hole, edgeTarget, g, Sides[k - 1]).Ok?
              && shots[k] == CueBankShot(o, white, target, hole, edgeTarget, g, Sides[k - 1]).value
  {
    var shots := AimShots(o, white, target, hole, edgeTarget).value;
    AimShotsTail(o, white, target, hole, edgeTarget);
    var banks := CueBanks(o, white, target, hole, edgeTarget, GhostOf(o, target, hole, edgeTarget), Sides).value;
    forall k | 1 <= k < 5
      ensures shots[k] == banks[k - 1]
    {
      assert shots[k] == shots[1..][k - 1];
    }
  }

  /** After the direct shot come the cue banks towards the aim's ghost
      position. */
  lemma AimShotsTail(o: Oracle, white: Ball, target: Ball, hole: Pocket, edgeTarget: Option<RPoint>)
    requires o.Valid()
    requires AimShots(o, white, target, hole, edgeTarget).Ok?
    ensures CueBanks(o, white, target, hole, edgeTarget, GhostOf(o, target, hole, edgeTarget), Sides).Ok?
    ensures AimShots(o, white, target, hole, edgeTarget).value[1..]
         == CueBanks(o, white, target, hole, edgeTarget, GhostOf(o, target, hole, edgeTarget), Sides).value
  {
    AimShotsUnfold(o, white, target, hole, edgeTarget);
    var base := MakeShot(o, white, target, hole, edgeTarget, None).value;
    var banks := CueBanks(o, white, target, hole, edgeTarget, base.Ghost(), Sides).value;
    assert ([base] + banks)[1..] == banks;
  }

  /** A successful `AimShots` is the direct shot followed by the cue banks
      towards its ghost position. */
  lemma AimShotsUnfold(o: Oracle, white: Ball, target: Ball, hole: Pocket, edgeTarget: Option<RPoint>)
    requires o.Valid()
    requires AimShots(o, white, target, hole, edgeTarget).Ok?
    ensures var base := MakeShot(o, white, target, hole, edgeTarget, None);
            && base.Ok?
            && base.value.Ghost() == GhostOf(o, target, hole, edgeTarget)
            && CueBanks(o, white, target, hole, edgeTarget, base.value.Ghost(), Sides).Ok?
            && AimShots(o, white, target, hole, edgeTarget).value
               == [base.value] + CueBanks(o, white, target, hole, edgeTarget, base.value.Ghost(), Sides).value
  {
  }

  /** The 15 shots for one (target, pocket) pair, in the program's order:
      direct, bank 1, bank 2, then for each of those three target aims the
      cue banks off U, R, D, L. (The program builds the three aim shots
      before any cue bank; with a single kind of failure the order of
      construction does not change the outcome.) */
  function PocketShots(o: Oracle, white: Ball, target: Ball, hole: Pocket): (r: Result<seq<Shot>>)
    requires o.Valid()
    ensures r.Ok? ==> |r.value| == 15
  {
    var edges := TargetEdges(target, hole);
    var direct :- AimShots(o, white, target, hole, edges[0]);
    var bank1 :- AimShots(o, white, target, hole, edges[1]);
    var bank2 :- AimShots(o, white, target, hole, edges[2]);
    Ok([direct[0], bank1[0], bank2[0]] + direct[1..] + bank1[1..] + bank2[1..])
  }

  /** The generation for one pocket fails iff one of its three target aims
      fails. */
  lemma PocketShotsFails(o: Oracle, white: Ball, target: Ball, hole: Pocket)
    requires o.Valid()
    ensures PocketShots(o, white, target, hole).Err? <==>
              var e := TargetEdges(target, hole);
              || AimFails(o, white, target, hole, e[0])
              || AimFails(o, white, target, hole, e[1])
              || AimFails(o, white, target, hole, e[2])
  {
    var e := TargetEdges(target, hole);
    AimShotsFails(o, white, target, hole, e[0]);
    AimShotsFails(o, white, target, hole, e[1]);
    AimShotsFails(o, white, target, hole, e[2]);
  }

  /** The order of a pocket's 15 shots: the three aim shots first, then the
      four cue banks of each aim in turn. */
  lemma PocketShotsOrder(o: Oracle, white: Ball, target: Ball, hole: Pocket)
    requires o.Valid()
    requires PocketShots(o, white, target, hole).Ok?
    ensures var e := TargetEdges(target, hole);
            var shots := PocketShots(o, white, target, hole).value;
            && AimShots(o, white, target, hole, e[0]).Ok?
            && AimShots(o, white, target, hole, e[1]).Ok?
            && AimShots(o, white, target, hole, e[2]).Ok?
            && shots[0] == AimShots(o, white, target, hole, e[0]).value[0]
            && shots[1] == AimShots(o, white, target, hole, e[1]).value[0]
            && shots[2] == AimShots(o, white, target, hole, e[2]).value[0]
            && shots[3..7] == AimShots(o, white, target, hole, e[0]).value[1..]
            && shots[7..11] == AimShots(o, white, target, hole, e[1]).value[1..]
            && shots[11..15] == AimShots(o, white, target, hole, e[2]).value[1..]
  {
    var e := TargetEdges(target, hole);
    var a0 := AimShots(o, white, target, hole, e[0]).value;
    var a1 := AimShots(o, white, target, hole, e[1]).value;
    var a2 := AimShots(o, white, target, hole, e[2]).value;
    var shots := PocketShots(o, white, target, hole).value;
    assert shots == [a0[0], a1[0], a2[0]] + a0[1..] + a1[1..] + a2[1..];
    Concat4(a0, a1, a2, shots);
  }

  lemma Concat4(a0: seq<Shot>, a1: seq<Shot>, a2: seq<Shot>, shots: seq<Shot>)
    requires |a0| == 5 && |a1| == 5 && |a2| == 5
    requires shots == [a0[0], a1[0], a2[0]] + a0[1..] + a1[1..] + a2[1..]
    ensures shots[0] == a0[0] && shots[1] == a1[0] && shots[2] == a2[0]
    ensures shots[3..7] == a0[1..] && shots[7..11] == a1[1..] && shots[11..15] == a2[1..]
  {
  }

  /** The generation for one pocket, for a fixed cue ball and target. */
  function PocketGen(o: Oracle, white: Ball, target: Ball): Pocket -> Result<seq<Shot>>
    requires o.Valid()
  {
    (hole: Pocket) => PocketShots(o, white, target, hole)
  }

  /** `get_shots`: all 90 candidate shots for one target ball, pocket by
      pocket in the order UL, UR, CL, CR, LL, LR. Any zero-length direction
      raises and aborts the whole generation. */
  function GetShots(o: Oracle, white: Ball, target: Ball): Result<seq<Shot>>
    requires o.Valid()
  {
    Collect(PocketGen(o, white, target), Pockets)
  }

  /** The generation for a target fails iff it fails for some pocket. */
  lemma GetShotsFails(o: Oracle, white: Ball, target: Ball)
    requires o.Valid()
    ensures GetShots(o, white, target).Err? <==>
              exists i :: 0 <= i < |Pockets| && PocketShots(o, white, target, Pockets[i]).Err?
  {
  }

  /** Every pocket that generates successfully yields 15 shots. */
  lemma PocketGenUniform(o: Oracle, white: Ball, target: Ball)
    requires o.Valid()
    ensures Uniform(PocketGen(o, white, target), Pockets, 15)
  {
  }

  /** On success there are 90 shots, and pocket `i`'s 15 shots occupy
      positions 15i to 15i + 14. */
  lemma GetShotsOrder(o: Oracle, white: Ball, target: Ball, i: nat)
    requires o.Valid()
    requires GetShots(o, white, target).Ok?
    requires i < |Pockets|
    ensures |GetShots(o, white, target).value| == 90
    ensures PocketShots(o, white, target, Pockets[i]).Ok?
    ensures GetShots(o, white, target).value[15 * i .. 15 * i + 15] == PocketShots(o, white, target, Pockets[i]).value
  {
    var gen := PocketGen(o, white, target);
    PocketGenUniform(o, white, target);
    CollectLength(gen, Pockets, 15);
    CollectChunks(gen, Pockets, 15, i);
    assert gen(Pockets[i]) == PocketShots(o, white, target, Pockets[i]);
  }
}

=== FILE: filters.dfy ===
/** The feasibility filters applied to each segment of a shot: the distance
    from a ball to a segment, the obstruction test, and the exclusion zones in
    front of the pocket mouths. */
module Filters {
  import opened Geometry
  import opened Layout
  import opened Balls

  /** Python's `max(0, min(1, t))`. */
  function Clamp01(t: real): (r: real)
    ensures 0.0 <= r <= 1.0
    ensures 0.0 <= t <= 1.0 ==> r == t
    ensures t < 0.0 ==> r == 0.0
    ensures 1.0 < t ==> r == 1.0
  {
    if t > 1.0 then 1.0 else if t < 0.0 then 0.0 else t
  }

  /** Squared distance from `p` to the point of the line through `a` and `b`
      at parameter `s` (`a` at 0, `b` at 1). */
  function SqDistAt(p: Point, a: Point, b: Point, s: real): real {
    var wx := (p.x - a.x) as real;
    var wy := (p.y - a.y) as real;
    var dx := (b.x - a.x) as real;
    var dy := (b.y - a.y) as real;
    (wx - s * dx) * (wx - s * dx) + (wy - s * dy) * (wy - s * dy)
  }

  /** The parameter of the point of segment a-b nearest to `p`: the
      projection of `p` onto the line, clamped to the segment. */
  function NearestParam(p: Point, a: Point, b: Point): (t: real)
    requires a != b
    ensures 0.0 <= t <= 1.0
  {
    PositiveLenSq(a, b);
    Clamp01(Along(p, a, b) / RSqDist(ToReal(a), ToReal(b)))
  }

  /** The square of `ball_shot_dist`: the distance from `p` to the nearest
      point of segment a-b, or to `a` when the segment is a single point. */
  function BallShotDistSq(p: Point, a: Point, b: Point): (r: real)
    ensures 0.0 <= r
    ensures a == b ==> r == SqDist(p, a) as real
    ensures r <= SqDist(p, a) as real && r <= SqDist(p, b) as real
    ensures p == a || p == b ==> r == 0.0
  {
    EndpointParams(p, a, b);
    if a == b then
      SqDistAt(p, a, b, 0.0)
    else
      var t := NearestParam(p, a, b);
      NearestIsNearest(p, a, b, 0.0);
      NearestIsNearest(p, a, b, 1.0);
      SqDistAtNonneg(p, a, b, t);
      SqDistAt(p, a, b, t)
  }

  /** Parameters 0 and 1 are the endpoints of the segment. */
  lemma EndpointParams(p: Point, a: Point, b: Point)
    ensures SqDistAt(p, a, b, 0.0) == SqDist(p, a) as real
    ensures SqDistAt(p, a, b, 1.0) == SqDist(p, b) as real
  {
  }

  lemma SqDistAtNonneg(p: Point, a: Point, b: Point, s: real)
    ensures 0.0 <= SqDistAt(p, a, b, s)
  {
  }

  /** `ball_shot_dist`: the distance itself, `math.hypot` of the offset. */
  function BallShotDist(o: Oracle, p: Point, a: Point, b: Point): (r: real)
    requires o.Valid()
    ensures 0.0 <= r && r * r == BallShotDistSq(p, a, b)
  {
    Root(o, BallShotDistSq(p, a, b))
  }

  /** The clamped projection really is the nearest point of the segment:
      no point of the segment is closer to `p`. */
  lemma NearestIsNearest(p: Point, a: Point, b: Point, s: real)
    requires a != b && 0.0 <= s <= 1.0
    ensures SqDistAt(p, a, b, NearestParam(p, a, b)) <= SqDistAt(p, a, b, s)
  {
    var t := NearestParam(p, a, b);
    var c := Along(p, a, b);
    var len := RSqDist(ToReal(a), ToReal(b));
    PositiveLenSq(a, b);
    Quadratic(p, a, b, s);
    Quadratic(p, a, b, t);
    QuadraticGap(c, len, s, t);
    ClampedGapNonneg(c, len, s, t);
  }

  /** The offset of `p` from `a` projected on the direction a-b, unscaled. */
  function Along(p: Point, a: Point, b: Point): real {
    (p.x - a.x) as real * (b.x - a.x) as real + (p.y - a.y) as real * (b.y - a.y) as real
  }

  /** `SqDistAt` as a quadratic polynomial in the parameter. */
  lemma Quadratic(p: Point, a: Point, b: Point, s: real)
    ensures SqDistAt(p, a, b, s) == SqDistAt(p, a, b, 0.0) - 2.0 * s * Along(p, a, b) + s * s * RSqDist(ToReal(a), ToReal(b))
  {
  }

  /** A segment with distinct ends has a positive squared length. */
  lemma PositiveLenSq(a: Point, b: Point)
    requires a != b
    ensures 0.0 < RSqDist(ToReal(a), ToReal(b))
  {
  }

  /** The difference of the quadratic at `s` and at `t`, factored. */
  lemma QuadraticGap(c: real, len: real, s: real, t: real)
    ensures (-2.0 * s * c + s * s * len) - (-2.0 * t * c + t * t * len)
         == (s - t) * (s - t) * len + 2.0 * (s - t) * (t * len - c)
  {
  }

  /** For the clamped minimiser `t`, the gap to any `s` in [0, 1] is
      nonnegative. */
  lemma ClampedGapNonneg(c: real, len: real, s: real, t: real)
    requires 0.0 < len && 0.0 <= s <= 1.0 && t == Clamp01(c / len)
    ensures 0.0 <= (s - t) * (s - t) * len + 2.0 * (s - t) * (t * len - c)
  {
    var q := c / len;
    assert q * len == c;
    assert 0.0 <= (s - t) * (s - t) by {
      if s < t {
        MulMono(s - t, 0.0, t - s);
      }
      if t < s {
        MulMono(0.0, s - t, s - t);
      }
    }
    MulMonoLe(0.0, (s - t) * (s - t), len);
    if q < 0.0 {
      assert t == 0.0;
      assert c < 0.0 by {
        MulMono(q, 0.0, len);
      }
      MulMonoLe(0.0, s, -c);
    } else if 1.0 < q {
      assert t == 1.0;
      assert len < c by {
        MulMono(1.0, q, len);
      }
      MulMonoLe(0.0, 1.0 - s, c - len);
    } else {
      assert t == q && t * len - c == 0.0;
    }
  }

  /** `ball` blocks a segment: it is not at either end and lies closer to the
      segment than `2 * radius - 2`. */
  predicate Blocks(o: Oracle, seg: Segment, ball: Ball, radius: int)
    requires o.Valid()
  {
    var c := ball.Coordinates();
    && c != seg.start && c != seg.end
    && BallShotDist(o, c, seg.start, seg.end) < (2 * radius - 2) as real
  }

  /** `is_shot_blocked`: scan the balls in order and report the first one that
      blocks the segment. */
  function IsShotBlocked(o: Oracle, seg: Segment, balls: seq<Ball>, radius: int): (r: bool)
    requires o.Valid()
    ensures r <==> exists i :: 0 <= i < |balls| && Blocks(o, seg, balls[i], radius)
  {
    if balls == [] then
      false
    else
      assert forall i :: 1 <= i < |balls| ==> balls[i] == balls[1..][i - 1];
      var c := balls[0].Coordinates();
      if c == seg.start || c == seg.end then
        IsShotBlocked(o, seg, balls[1..], radius)
      else if BallShotDist(o, c, seg.start, seg.end) < (2 * radius - 2) as real then
        true
      else
        IsShotBlocked(o, seg, balls[1..], radius)
  }

  /** The obstruction test is exact arithmetic on squares: a ball blocks iff
      the clearance `2r - 2` is positive and its squared distance to the
      segment is below the clearance squared. */
  lemma BlocksBySquares(o: Oracle, seg: Segment, ball: Ball, radius: int)
    requires o.Valid()
    ensures Blocks(o, seg, ball, radius) <==>
              var c := ball.Coordinates();
              var limit := (2 * radius - 2) as real;
              && c != seg.start && c != seg.end
              && 0.0 < limit
              && BallShotDistSq(c, seg.start, seg.end) < limit * limit
  {
    var c := ball.Coordinates();
    SqrtBelow(o, BallShotDistSq(c, seg.start, seg.end), (2 * radius - 2) as real);
  }

  /** Balls centred on an endpoint never block, so the target and cue balls
      do not block their own segments. */
  lemma EndpointBallsNeverBlock(o: Oracle, seg: Segment, balls: seq<Ball>, radius: int)
    requires o.Valid()
    requires forall i :: 0 <= i < |balls| ==>
               balls[i].Coordinates() == seg.start || balls[i].Coordinates() == seg.end
    ensures !IsShotBlocked(o, seg, balls, radius)
  {
  }

  /** A ball whose centre lies on the segment, strictly between its ends,
      blocks it whenever the clearance is positive. */
  lemma BallOnSegmentBlocks(o: Oracle, seg: Segment, balls: seq<Ball>, radius: int, i: nat)
    requires o.Valid() && 1 < radius && i < |balls|
    requires balls[i].Coordinates() != seg.start && balls[i].Coordinates() != seg.end
    requires BallShotDistSq(balls[i].Coordinates(), seg.start, seg.end) == 0.0
    ensures IsShotBlocked(o, seg, balls, radius)
  {
    var limit := (2 * radius - 2) as real;
    MulMono(0.0, limit, limit);
    BlocksBySquares(o, seg, balls[i], radius);
    assert Blocks(o, seg, balls[i], radius);
  }

  /** The pocket-mouth exclusion zone of a pocket: within `MouthMargin` of the
      side cushion the pocket sits on, and level with the pocket (above the
      top margin, below the bottom margin, or within `MouthMargin` of the
      middle). */
  predicate InMouth(q: Pocket, p: Point) {
    && (if q.pos.x < TableWidth / 2 then p.x < MouthMargin else TableWidth - MouthMargin < p.x)
    && if q.pos.y < MouthMargin then p.y < MouthMargin
       else if TableHeight - MouthMargin < q.pos.y then TableHeight - MouthMargin < p.y
       else q.pos.y - MouthMargin < p.y < q.pos.y + MouthMargin
  }

  /** `is_edge_possible`: a segment is feasible unless its first point lies in
      one of the six pocket-mouth zones; the end point is never looked at. */
  function IsEdgePossible(seg: Segment): (r: bool)
    ensures r <==> forall i :: 0 <= i < |Pockets| ==> !InMouth(Pockets[i], seg.start)
  {
    var x := seg.start.x;
    var y := seg.start.y;
    MouthZones(seg.start);
    if x < MouthMargin && y < MouthMargin then false
    else if x > TableWidth - MouthMargin && y < MouthMargin then false
    else if x < MouthMargin && 1000 - MouthMargin < y < 1000 + MouthMargin then false
    else if x > TableWidth - MouthMargin && 1000 - MouthMargin < y < 1000 + MouthMargin then false
    else if x < MouthMargin && y > TableHeight - MouthMargin then false
    else if x > TableWidth - MouthMargin && y > TableHeight - MouthMargin then false
    else true
  }

  /** The six zones, pocket by pocket. */
  lemma MouthZones(p: Point)
    ensures (exists i :: 0 <= i < |Pockets| && InMouth(Pockets[i], p)) <==>
              || InMouth(Pockets[0], p) || InMouth(Pockets[1], p) || InMouth(Pockets[2], p)
              || InMouth(Pockets[3], p) || InMouth(Pockets[4], p) || InMouth(Pockets[5], p)
  {
  }

  /** Every pocket position is infeasible as a segment start. */
  lemma PocketsInfeasible(q: Pocket, end: Point)
    requires q in Pockets
    ensures !IsEdgePossible(Segment(q.pos, end))
  {
  }

  /** The table centre is feasible, and the zone boundary x = 50 is outside
      every zone. */
  lemma FeasiblePoints(y: int, end: Point)
    ensures IsEdgePossible(Segment(Point(TableWidth / 2, TableHeight / 2), end))
    ensures IsEdgePossible(Segment(Point(MouthMargin, y), end))
  {
  }

  /** Only the first point of the segment matters. */
  lemma OnlyStartMatters(start: Point, end1: Point, end2: Point)
    ensures IsEdgePossible(Segment(start, end1)) == IsEdgePossible(Segment(start, end2))
  {
  }
}

=== FILE: geometry.dfy ===
/** Points, segments, paths and cushions of the logical 1000 x 2000 pool table,
    with the numeric helpers the shot engine needs: truncation toward zero (the
    `int(...)` casts of the program) and an abstract square-root / angle oracle
    standing in for `math.sqrt`, `math.hypot`, `math.acos`, `math.degrees` and
    `round`. */
module Geometry {

  /** The only failure the engine can raise: a float division by zero. */
  datatype GeomError = DivisionByZero

  /** Outcome of a computation that may raise; usable with `:-`. */
  datatype Result<+T> = Ok(value: T) | Err(error: GeomError) {
    predicate IsFailure() {
      Err?
    }

    function PropagateFailure<U>(): Result<U>
      requires Err?
    {
      Err(error)
    }

    function Extract(): T
      requires Ok?
    {
      value
    }
  }

  /** A value or Python's `None`. */
  datatype Option<+T> = None | Some(value: T)

  /** Integer table coordinates: ball centres, pockets and every path endpoint. */
  datatype Point = Point(x: int, y: int)

  /** Exact real coordinates: reflection points and ghost balls before truncation. */
  datatype RPoint = RPoint(x: real, y: real)

  function ToReal(p: Point): RPoint {
    RPoint(p.x as real, p.y as real)
  }

  /** Python's `int(r)` on a float: truncation toward zero. It differs from
      `r.Floor` on negative non-integers. */
  function Trunc(r: real): (n: int)
    ensures 0.0 <= r ==> n as real <= r < n as real + 1.0
    ensures r < 0.0 ==> n as real - 1.0 < r <= n as real
  {
    if r >= 0.0 then r.Floor else -((-r).Floor)
  }

  /** Truncation is symmetric about zero and leaves integers alone. */
  lemma TruncOddAndExact(r: real, n: int)
    ensures Trunc(-r) == -Trunc(r)
    ensures Trunc(n as real) == n
  {
  }

  function TruncPoint(q: RPoint): Point {
    Point(Trunc(q.x), Trunc(q.y))
  }

  /** An ordered pair of points; a segment of a shot path. */
  datatype Segment = Segment(start: Point, end: Point)

  /** A ball path: one straight segment, or two segments meeting at a cushion. */
  datatype Path = Direct(only: Segment) | Banked(first: Segment, second: Segment) {
    /** The segment leaving the path's start point. */
    function First(): Segment {
      if Direct? then only else first
    }

    /** The segment arriving at the path's end point. */
    function Last(): Segment {
      if Direct? then only else second
    }

    function Start(): Point {
      First().start
    }

    function End(): Point {
      Last().end
    }

    function Segments(): (s: seq<Segment>)
      ensures |s| == (if Banked? then 2 else 1)
      ensures s[0] == First() && s[|s| - 1] == Last()
    {
      if Direct? then [only] else [first, second]
    }

    /** A banked path is continuous at its reflection point. */
    predicate Joined() {
      Banked? ==> first.end == second.start
    }
  }

  /** A displacement between two integer points. */
  datatype Vec = Vec(dx: int, dy: int)

  function Sub(p: Point, q: Point): Vec {
    Vec(p.x - q.x, p.y - q.y)
  }

  /** The displacement between two points is zero exactly when they coincide. */
  lemma SubZero(p: Point, q: Point)
    ensures Sub(p, q) == Vec(0, 0) <==> p == q
  {
  }

  function Dot(u: Vec, v: Vec): int {
    u.dx * v.dx + u.dy * v.dy
  }

  function SqLen(dx: int, dy: int): (r: int)
    ensures r >= 0
    ensures r == 0 <==> dx == 0 && dy == 0
  {
    dx * dx + dy * dy
  }

  function SqDist(p: Point, q: Point): int {
    SqLen(q.x - p.x, q.y - p.y)
  }

  function RSqDist(p: RPoint, q: RPoint): real {
    (q.x - p.x) * (q.x - p.x) + (q.y - p.y) * (q.y - p.y)
  }

  /** A cushion is the segment between two pocket positions. */
  datatype Cushion = Cushion(a: Point, b: Point)

  /** The program decides orientation by testing `y3 == y4` first, then `x3 == x4`. */
  predicate Horizontal(c: Cushion) {
    c.a.y == c.b.y
  }

  predicate Vertical(c: Cushion) {
    c.a.x == c.b.x
  }

  predicate AxisAligned(c: Cushion) {
    Horizontal(c) || Vertical(c)
  }

  /** A cushion that is a real segment, not a single point. */
  predicate Proper(c: Cushion) {
    AxisAligned(c) && c.a != c.b
  }

  /** The point lies on the (infinite) line carrying the cushion. */
  predicate OnLine(c: Cushion, p: RPoint)
    requires AxisAligned(c)
  {
    if Horizontal(c) then p.y == c.a.y as real else p.x == c.a.x as real
  }

  /** Stand-ins for the math library. `sqrt` is the nonnegative square root;
      `degrees` maps a cosine to `round(degrees(acos(c)), 1)`, which lies in
      [0, 180] for every cosine in [-1, 1]. */
  datatype Oracle = Oracle(sqrt: real -> real, degrees: real -> real) {
    ghost predicate Valid() {
      && (forall x: real :: 0.0 <= x ==> 0.0 <= sqrt(x) && sqrt(x) * sqrt(x) == x)
      && (forall c: real :: -1.0 <= c <= 1.0 ==> 0.0 <= degrees(c) <= 180.0)
    }
  }

  /** Euclidean length of a vector: `math.sqrt(dx ** 2 + dy ** 2)`. */
  function Norm(o: Oracle, v: Vec): (r: real)
    requires o.Valid()
    ensures 0.0 <= r
    ensures r == 0.0 <==> v == Vec(0, 0)
    ensures r * r == SqLen(v.dx, v.dy) as real
  {
    SqrtZero(o, SqLen(v.dx, v.dy) as real);
    o.sqrt(SqLen(v.dx, v.dy) as real)
  }

  /** The Euclidean length of a segment (`math.dist`). */
  function SegLength(o: Oracle, s: Segment): (r: real)
    requires o.Valid()
    ensures 0.0 <= r
    ensures r * r == SqDist(s.start, s.end) as real
  {
    o.sqrt(SqDist(s.start, s.end) as real)
  }

  lemma MulMono(a: real, b: real, c: real)
    requires a < b && 0.0 < c
    ensures a * c < b * c
  {
  }

  lemma MulMonoLe(a: real, b: real, c: real)
    requires a <= b && 0.0 <= c
    ensures a * c <= b * c
  {
  }

  lemma SquareMono(a: real, b: real)
    requires 0.0 <= a < b
    ensures a * a < b * b
  {
    calc {
      a * a;
    <= { MulMonoLe(a, b, a); }
      b * a;
    < { MulMono(a, b, b); }
      b * b;
    }
  }

  /** Nonnegative reals with equal squares are equal. */
  lemma SquareInjective(a: real, b: real)
    requires 0.0 <= a && 0.0 <= b && a * a == b * b
    ensures a == b
  {
    if a < b {
      SquareMono(a, b);
    }
    if b < a {
      SquareMono(b, a);
    }
  }

  /** The square root of a nonnegative real, through the oracle. */
  function Root(o: Oracle, x: real): (r: real)
    requires o.Valid() && 0.0 <= x
    ensures 0.0 <= r && r * r == x
  {
    o.sqrt(x)
  }

  /** `math.sqrt(x) == 0` exactly when `x == 0`. */
  lemma SqrtZero(o: Oracle, x: real)
    requires o.Valid() && 0.0 <= x
    ensures o.sqrt(x) == 0.0 <==> x == 0.0
  {
    if x == 0.0 {
      SquareInjective(o.sqrt(x), 0.0);
    }
  }

  /** Comparing a distance `sqrt(sq)` against a bound is the same as comparing
      squares against a positive bound. */
  lemma SqrtBelow(o: Oracle, sq: real, limit: real)
    requires o.Valid() && 0.0 <= sq
    ensures o.sqrt(sq) < limit <==> 0.0 < limit && sq < limit * limit
  {
    var s := o.sqrt(sq);
    if s < limit {
      SquareMono(s, limit);
    }
    if 0.0 < limit && limit < s {
      SquareMono(limit, s);
    }
  }
}

=== FILE: layout.dfy ===
/** The fixed table layout: six pockets inset by one hole diameter, the four
    cushions joining them, and the per-pocket choice of cushions a target ball
    may be banked off. */
module Layout {
  import opened Geometry

  const TableWidth: int := 1000
  const TableHeight: int := 2000
  const HoleDiameter: int := 40
  /** Half-size of the exclusion zone in front of a pocket mouth. */
  const MouthMargin: int := HoleDiameter + 10
  /** How many shots are recommended in the end. */
  const Recommendations: nat := 3

  datatype Label = UL | UR | CL | CR | LL | LR

  datatype Pocket = Pocket(pos: Point, code: Label)

  /** The pockets in enumeration order. */
  const Pockets: seq<Pocket> := [
    Pocket(Point(HoleDiameter, HoleDiameter), UL),
    Pocket(Point(TableWidth - HoleDiameter, HoleDiameter), UR),
    Pocket(Point(HoleDiameter, 1000), CL),
    Pocket(Point(TableWidth - HoleDiameter, 1000), CR),
    Pocket(Point(HoleDiameter, TableHeight - HoleDiameter), LL),
    Pocket(Point(TableWidth - HoleDiameter, TableHeight - HoleDiameter), LR)
  ]

  /** The cushions: top, right, bottom, left. */
  datatype Side = U | R | D | L

  /** The cushions in enumeration order (the insertion order of the program's table). */
  const Sides: seq<Side> := [U, R, D, L]

  function CushionOf(s: Side): Cushion {
    match s
    case U => Cushion(Pockets[0].pos, Pockets[1].pos)
    case R => Cushion(Pockets[1].pos, Pockets[5].pos)
    case D => Cushion(Pockets[4].pos, Pockets[5].pos)
    case L => Cushion(Pockets[0].pos, Pockets[4].pos)
  }

  /** The two cushions a target ball is banked off before dropping into the
      pocket with this label, in the order the shots are generated. */
  function BankSides(code: Label): (Side, Side) {
    match code
    case UL => (D, R)
    case UR => (L, D)
    case LL => (U, R)
    case LR => (L, U)
    case CL => (D, U)
    case CR => (D, U)
  }

  /** Every cushion is a proper axis-aligned segment: U and D horizontal at
      y = 40 and y = 1960, R and L vertical at x = 960 and x = 40. */
  lemma CushionLines(s: Side)
    ensures Proper(CushionOf(s))
    ensures Horizontal(CushionOf(s)) <==> s == U || s == D
    ensures s == U ==> CushionOf(s).a.y == HoleDiameter
    ensures s == D ==> CushionOf(s).a.y == TableHeight - HoleDiameter
    ensures s == R ==> CushionOf(s).a.x == TableWidth - HoleDiameter
    ensures s == L ==> CushionOf(s).a.x == HoleDiameter
  {
  }

  /** The six pockets have distinct positions and distinct labels. */
  lemma PocketTable()
    ensures |Pockets| == 6
    ensures forall i, j :: 0 <= i < j < |Pockets| ==> Pockets[i].pos != Pockets[j].pos && Pockets[i].code != Pockets[j].code
  {
  }

  /** A pocket is never reached by banking off a cushion whose line passes through
      it, and its two bank cushions differ; so the mirrored pocket is never the
      pocket itself. */
  lemma BankSidesAvoidPocket(p: Pocket)
    requires p in Pockets
    ensures BankSides(p.code).0 != BankSides(p.code).1
    ensures !OnLine(CushionOf(BankSides(p.code).0), ToReal(p.pos))
    ensures !OnLine(CushionOf(BankSides(p.code).1), ToReal(p.pos))
  {
  }
}

=== FILE: ordering.dfy ===
/** Order-preserving sublists: what is left of a list after deleting entries
    from it, or after keeping the entries that pass a test. */
module Ordering {

  /** `idx` places the entries of `a`, in order, at strictly increasing
      positions of `b`. */
  predicate Embeds<T(==)>(a: seq<T>, b: seq<T>, idx: seq<nat>) {
    && |idx| == |a|
    && (forall k :: 0 <= k < |a| ==> idx[k] < |b| && a[k] == b[idx[k]])
    && (forall j, k :: 0 <= j < k < |a| ==> idx[j] < idx[k])
  }

  /** `a` is `b` with some entries removed and the rest in their order. */
  ghost predicate IsSubsequence<T>(a: seq<T>, b: seq<T>) {
    exists idx :: Embeds(a, b, idx)
  }

  /** Deleting one entry leaves an order-preserving sublist. */
  lemma DeleteAt<T>(b: seq<T>, i: nat)
    requires i < |b|
    ensures IsSubsequence(b[..i] + b[i + 1..], b)
  {
    var a := b[..i] + b[i + 1..];
    var idx := seq(|a|, k requires 0 <= k < |a| => if k < i then k else k + 1);
    assert Embeds(a, b, idx);
  }

  /** A sublist of a sublist is a sublist. */
  lemma SubsequenceTrans<T>(a: seq<T>, b: seq<T>, c: seq<T>)
    requires IsSubsequence(a, b) && IsSubsequence(b, c)
    ensures IsSubsequence(a, c)
  {
    var i1 :| Embeds(a, b, i1);
    var i2 :| Embeds(b, c, i2);
    var idx := seq(|a|, k requires 0 <= k < |a| => i2[i1[k]]);
    assert Embeds(a, c, idx);
  }

  lemma SubsequenceRefl<T>(b: seq<T>)
    ensures IsSubsequence(b, b)
  {
    var idx := seq(|b|, k requires 0 <= k < |b| => k);
    assert Embeds(b, b, idx);
  }

  /** The entries of `s` that pass `keep`, in their order (a Python list
      comprehension with a condition, or a loop appending what passes). */
  function Filter<T(==)>(keep: T -> bool, s: seq<T>): (r: seq<T>)
    ensures forall k :: 0 <= k < |r| ==> r[k] in s && keep(r[k])
    ensures forall k :: 0 <= k < |s| && keep(s[k]) ==> s[k] in r
    ensures |r| <= |s|
  {
    if s == [] then []
    else
      var rest := Filter(keep, s[1..]);
      assert forall k :: 1 <= k < |s| ==> s[k] == s[1..][k - 1];
      if keep(s[0]) then [s[0]] + rest else rest
  }

  /** A filter keeps every copy of what passes and no copy of anything
      else. */
  lemma {:induction false} FilterCounts<T>(keep: T -> bool, s: seq<T>, x: T)
    ensures multiset(Filter(keep, s))[x] == if keep(x) then multiset(s)[x] else 0
  {
    if s != [] {
      var rest := Filter(keep, s[1..]);
      FilterCounts(keep, s[1..], x);
      assert s == [s[0]] + s[1..];
      assert multiset(s) == multiset{s[0]} + multiset(s[1..]);
      if keep(s[0]) {
        assert Filter(keep, s) == [s[0]] + rest;
        assert multiset(Filter(keep, s)) == multiset{s[0]} + multiset(rest);
      } else {
        assert Filter(keep, s) == rest;
      }
    }
  }

  /** What a filter keeps stays in order. */
  lemma {:induction false} FilterSubsequence<T>(keep: T -> bool, s: seq<T>)
    ensures IsSubsequence(Filter(keep, s), s)
  {
    if s == [] {
      assert Embeds([], s, []);
    } else {
      var rest := Filter(keep, s[1..]);
      FilterSubsequence(keep, s[1..]);
      SubsequenceCons(s[0], rest, s[1..]);
      assert [s[0]] + s[1..] == s;
      if keep(s[0]) {
        assert Filter(keep, s) == [s[0]] + rest;
      } else {
        assert Filter(keep, s) == rest;
      }
    }
  }

  /** Putting one entry in front of a list keeps its sublists sublists, with
      or without that entry in front of them too. */
  lemma SubsequenceCons<T>(x: T, a: seq<T>, b: seq<T>)
    requires IsSubsequence(a, b)
    ensures IsSubsequence(a, [x] + b)
    ensures IsSubsequence([x] + a, [x] + b)
  {
    var i1 :| Embeds(a, b, i1);
    EmbedsShift(x, a, b, i1);
    EmbedsCons(x, a, b, i1);
  }

  /** Every position moved one place on. */
  function Shift(idx: seq<nat>): (r: seq<nat>)
    ensures |r| == |idx| && forall k :: 0 <= k < |idx| ==> r[k] == idx[k] + 1
  {
    seq(|idx|, k requires 0 <= k < |idx| => idx[k] + 1)
  }

  lemma EmbedsShift<T>(x: T, a: seq<T>, b: seq<T>, idx: seq<nat>)
    requires Embeds(a, b, idx)
    ensures Embeds(a, [x] + b, Shift(idx))
  {
  }

  lemma EmbedsCons<T>(x: T, a: seq<T>, b: seq<T>, idx: seq<nat>)
    requires Embeds(a, b, idx)
    ensures Embeds([x] + a, [x] + b, [0] + Shift(idx))
  {
  }

  /** A filter that every entry passes keeps the whole list, and one that
      none passes keeps nothing. */
  lemma {:induction false} FilterExtremes<T>(keep: T -> bool, s: seq<T>)
    ensures (forall k :: 0 <= k < |s| ==> keep(s[k])) ==> Filter(keep, s) == s
    ensures (forall k :: 0 <= k < |s| ==> !keep(s[k])) ==> Filter(keep, s) == []
  {
    if s != [] {
      var tail := s[1..];
      FilterExtremes(keep, tail);
      if forall k :: 0 <= k < |s| ==> keep(s[k]) {
        forall k | 0 <= k < |tail|
          ensures keep(tail[k])
        {
          assert tail[k] == s[k + 1];
        }
        assert Filter(keep, s) == [s[0]] + tail;
        assert [s[0]] + tail == s;
      }
      if forall k :: 0 <= k < |s| ==> !keep(s[k]) {
        forall k | 0 <= k < |tail|
          ensures !keep(tail[k])
        {
          assert tail[k] == s[k + 1];
        }
      }
    }
  }
}

=== FILE: ranking.dfy ===
/** Ranking of validated shots: every shot gets a score (lower is better)
    and the best `Recommendations` are taken out one at a time, each time the
    earliest shot with the lowest score. */
module Ranking {
  import opened Layout
  import opened Shots
  import opened Ordering

  /** The penalty for cushions: 1 for a shot with no bank, 4 for one banked
      path, 8 when both paths are banked. */
  function Multiplier(s: Shot): (m: real)
    ensures s.BankCount() == 0 ==> m == 1.0
    ensures s.BankCount() == 1 ==> m == 4.0
    ensures s.BankCount() == 2 ==> m == 8.0
  {
    if s.target.Banked? && s.cue.Banked? then 8.0
    else if s.target.Banked? || s.cue.Banked? then 4.0
    else 1.0
  }

  /** The score of a shot: thin cuts (small angles) and long paths score
      higher, and the cushion penalty multiplies the sum. */
  function Factor(s: Shot): real {
    ((180.0 - s.angle) * 300.0 + s.length) * Multiplier(s)
  }

  /** A well-formed shot (angle in [0, 180], nonnegative length) has a
      nonnegative score, at least its length times the penalty. */
  lemma FactorBounds(s: Shot)
    requires 0.0 <= s.angle <= 180.0 && 0.0 <= s.length
    ensures 0.0 <= s.length * Multiplier(s) <= Factor(s)
  {
  }

  /** Among shots with the same number of banks, a wider angle and a shorter
      path never score worse. */
  lemma FactorMonotone(a: Shot, b: Shot)
    requires a.BankCount() == b.BankCount()
    requires b.angle <= a.angle && a.length <= b.length
    ensures Factor(a) <= Factor(b)
  {
  }

  /** Between two shots with the same angle and length and a positive base
      score, the one with fewer banks scores strictly better. */
  lemma FewerBanksBetter(a: Shot, b: Shot)
    requires a.angle == b.angle && a.length == b.length
    requires 0.0 < (180.0 - a.angle) * 300.0 + a.length
    requires a.BankCount() < b.BankCount()
    ensures Factor(a) < Factor(b)
  {
  }

  /** The scores of a list of shots, position by position. */
  function Factors(shots: seq<Shot>): seq<real> {
    seq(|shots|, k requires 0 <= k < |shots| => Factor(shots[k]))
  }

  /** Python's `min` over a nonempty list. */
  function Min(fs: seq<real>): (m: real)
    requires |fs| > 0
    ensures m in fs
    ensures forall k :: 0 <= k < |fs| ==> m <= fs[k]
  {
    if |fs| == 1 then fs[0]
    else
      var rest := Min(fs[1..]);
      assert forall k :: 1 <= k < |fs| ==> fs[k] == fs[1..][k - 1];
      if fs[0] <= rest then fs[0] else rest
  }

  /** Python's `list.index`: the first position holding `v`. */
  function IndexOf(fs: seq<real>, v: real): (i: nat)
    requires v in fs
    ensures i < |fs| && fs[i] == v
    ensures forall k :: 0 <= k < i ==> fs[k] != v
  {
    if fs[0] == v then 0
    else
      assert v in fs[1..];
      1 + IndexOf(fs[1..], v)
  }

  /** The earliest position of a lowest score, found in one pass;
      `MinIndexIsIndexOfMin` shows it is `factors.index(min(factors))`. */
  function MinIndex(fs: seq<real>): (i: nat)
    requires |fs| > 0
    ensures i < |fs|
    ensures forall k :: 0 <= k < |fs| ==> fs[i] <= fs[k]
    ensures forall k :: 0 <= k < i ==> fs[i] < fs[k]
  {
    if |fs| == 1 then 0
    else
      var j := 1 + MinIndex(fs[1..]);
      assert forall k :: 1 <= k < |fs| ==> fs[k] == fs[1..][k - 1];
      if fs[j] < fs[0] then j else 0
  }

  /** The one-pass position is what the source computes: the first position
      of the minimum. */
  lemma MinIndexIsIndexOfMin(fs: seq<real>)
    requires |fs| > 0
    ensures MinIndex(fs) == IndexOf(fs, Min(fs))
  {
  }

  /** Take out the `n` best shots one at a time: the chosen shots in the
      order chosen, and what is left of the list after each chosen entry has
      been deleted from it. */
  function SelectBest(shots: seq<Shot>, n: nat): (r: (seq<Shot>, seq<Shot>))
    requires n <= |shots|
    ensures |r.0| == n && |r.1| == |shots| - n
    ensures multiset(r.0) + multiset(r.1) == multiset(shots)
    ensures forall j, k :: 0 <= j < k < |r.0| ==> Factor(r.0[j]) <= Factor(r.0[k])
    ensures forall j, k :: 0 <= j < |r.0| && 0 <= k < |r.1| ==> Factor(r.0[j]) <= Factor(r.1[k])
    decreases n
  {
    if n == 0 then ([], shots)
    else
      var i := MinIndex(Factors(shots));
      var rest := shots[..i] + shots[i + 1..];
      var next := SelectBest(rest, n - 1);
      LowestScore(shots);
      ChooseFirst(shots, i, next.0, next.1);
      ([shots[i]] + next.0, next.1)
  }

  /** One step of the selection: a lowest-scoring shot in front of the
      selection from the rest is a selection from the whole list. */
  lemma ChooseFirst(shots: seq<Shot>, i: nat, best: seq<Shot>, left: seq<Shot>)
    requires i < |shots|
    requires forall k :: 0 <= k < |shots| ==> Factor(shots[i]) <= Factor(shots[k])
    requires multiset(best) + multiset(left) == multiset(shots[..i] + shots[i + 1..])
    requires forall j, k :: 0 <= j < k < |best| ==> Factor(best[j]) <= Factor(best[k])
    requires forall j, k :: 0 <= j < |best| && 0 <= k < |left| ==> Factor(best[j]) <= Factor(left[k])
    ensures multiset([shots[i]] + best) + multiset(left) == multiset(shots)
    ensures forall j, k :: 0 <= j < k < |[shots[i]] + best| ==>
              Factor(([shots[i]] + best)[j]) <= Factor(([shots[i]] + best)[k])
    ensures forall j, k :: 0 <= j < |[shots[i]] + best| && 0 <= k < |left| ==>
              Factor(([shots[i]] + best)[j]) <= Factor(left[k])
  {
    ExtractMin(shots, i, best, left);
    Prepend(shots[i], best, left);
  }

  /** Putting a shot that scores no worse than everything in front of a
      sorted choice that scores no worse than the rest keeps both facts. */
  lemma Prepend(x: Shot, best: seq<Shot>, left: seq<Shot>)
    requires forall j :: 0 <= j < |best| ==> Factor(x) <= Factor(best[j])
    requires forall j :: 0 <= j < |left| ==> Factor(x) <= Factor(left[j])
    requires forall j, k :: 0 <= j < k < |best| ==> Factor(best[j]) <= Factor(best[k])
    requires forall j, k :: 0 <= j < |best| && 0 <= k < |left| ==> Factor(best[j]) <= Factor(left[k])
    ensures forall j, k :: 0 <= j < k < |[x] + best| ==> Factor(([x] + best)[j]) <= Factor(([x] + best)[k])
    ensures forall j, k :: 0 <= j < |[x] + best| && 0 <= k < |left| ==> Factor(([x] + best)[j]) <= Factor(left[k])
  {
  }

  /** One extraction step: the shot taken out scores no worse than anything
      left, so putting it in front keeps the chosen list sorted and below the
      rest. */
  lemma ExtractMin(shots: seq<Shot>, i: nat, best: seq<Shot>, left: seq<Shot>)
    requires i < |shots|
    requires forall k :: 0 <= k < |shots| ==> Factor(shots[i]) <= Factor(shots[k])
    requires multiset(best) + multiset(left) == multiset(shots[..i] + shots[i + 1..])
    ensures multiset([shots[i]] + best) + multiset(left) == multiset(shots)
    ensures forall j :: 0 <= j < |best| ==> Factor(shots[i]) <= Factor(best[j])
    ensures forall j :: 0 <= j < |left| ==> Factor(shots[i]) <= Factor(left[j])
  {
    var rest := shots[..i] + shots[i + 1..];
    assert shots == shots[..i] + [shots[i]] + shots[i + 1..];
    assert multiset(shots) == multiset(shots[..i]) + multiset{shots[i]} + multiset(shots[i + 1..]);
    assert multiset(rest) == multiset(shots[..i]) + multiset(shots[i + 1..]);
    assert multiset([shots[i]] + best) == multiset{shots[i]} + multiset(best);
    calc {
      multiset([shots[i]] + best) + multiset(left);
      multiset{shots[i]} + (multiset(best) + multiset(left));
      multiset{shots[i]} + multiset(rest);
      multiset(shots);
    }
    assert forall x :: x in rest ==> x in shots;
    forall j | 0 <= j < |best|
      ensures Factor(shots[i]) <= Factor(best[j])
    {
      assert best[j] in multiset(rest);
    }
    forall j | 0 <= j < |left|
      ensures Factor(shots[i]) <= Factor(left[j])
    {
      assert left[j] in multiset(rest);
    }
  }

  /** The first shot chosen is the earliest shot with the lowest score. */
  lemma FirstChoice(shots: seq<Shot>, n: nat)
    requires 0 < n <= |shots|
    ensures exists i :: 0 <= i < |shots| && SelectBest(shots, n).0[0] == shots[i]
              && (forall k :: 0 <= k < |shots| ==> Factor(shots[i]) <= Factor(shots[k]))
              && (forall k :: 0 <= k < i ==> Factor(shots[i]) < Factor(shots[k]))
  {
    var i := MinIndex(Factors(shots));
    LowestScore(shots);
    assert SelectBest(shots, n).0[0] == shots[i];
  }

  /** Every pick, not only the first, takes the earliest shot with the
      lowest score among those still left: pick `k` is the `MinIndex` entry
      of the list as the first `k` picks left it. */
  lemma EachChoice(shots: seq<Shot>, n: nat, k: nat)
    requires k < n <= |shots|
    ensures var left := SelectBest(shots, k).1;
            && |left| == |shots| - k
            && SelectBest(shots, n).0[k] == left[MinIndex(Factors(left))]
  {
  }

  /** A single pick, as the loop body does it: the earliest lowest-scoring
      shot, and the list with that entry deleted. */
  function Pick(shots: seq<Shot>): (r: (Shot, seq<Shot>))
    requires 0 < |shots|
    ensures |r.1| == |shots| - 1
  {
    var i := MinIndex(Factors(shots));
    (shots[i], shots[..i] + shots[i + 1..])
  }

  /** The list after `k` picks. */
  function Remaining(shots: seq<Shot>, k: nat): (r: seq<Shot>)
    requires k <= |shots|
    ensures |r| == |shots| - k
    decreases k
  {
    if k == 0 then shots else Remaining(Pick(shots).1, k - 1)
  }

  /** The first `n` picks, in the order taken. */
  function Picks(shots: seq<Shot>, n: nat): (r: seq<Shot>)
    requires n <= |shots|
    ensures |r| == n
    decreases n
  {
    if n == 0 then [] else [Pick(shots).0] + Picks(Pick(shots).1, n - 1)
  }

  /** Pick `k` is the single pick from what the first `k` picks left. */
  lemma {:induction false} PicksChoice(shots: seq<Shot>, n: nat, k: nat)
    requires k < n <= |shots|
    ensures Picks(shots, n)[k] == Pick(Remaining(shots, k)).0
    decreases k
  {
    var p := Pick(shots);
    assert Picks(shots, n) == [p.0] + Picks(p.1, n - 1);
    if k > 0 {
      PicksChoice(p.1, n - 1, k - 1);
      assert Remaining(shots, k) == Remaining(p.1, k - 1);
    }
  }

  /** `SelectBest` is the repeated single pick: its chosen shots are the
      picks and what it leaves is the list after them. */
  lemma {:induction false} SelectBestIsPicks(shots: seq<Shot>, n: nat)
    requires n <= |shots|
    ensures SelectBest(shots, n) == (Picks(shots, n), Remaining(shots, n))
    decreases n
  {
    if n > 0 {
      var p := Pick(shots);
      SelectBestIsPicks(p.1, n - 1);
      var next := SelectBest(p.1, n - 1);
      assert SelectBest(shots, n) == ([p.0] + next.0, next.1);
      assert Picks(shots, n) == [p.0] + Picks(p.1, n - 1);
      assert Remaining(shots, n) == Remaining(p.1, n - 1);
    }
  }

  /** `MinIndex` of the scores, in terms of the shots. */
  lemma LowestScore(shots: seq<Shot>)
    requires 0 < |shots|
    ensures var i := MinIndex(Factors(shots));
            && i < |shots|
            && (forall k :: 0 <= k < |shots| ==> Factor(shots[i]) <= Factor(shots[k]))
            && (forall k :: 0 <= k < i ==> Factor(shots[i]) < Factor(shots[k]))
  {
    var fs := Factors(shots);
    assert forall k :: 0 <= k < |shots| ==> fs[k] == Factor(shots[k]);
  }

  /** What is left after the extraction keeps its order: the deletions only
      remove entries. */
  lemma {:induction false} SelectBestLeftInOrder(shots: seq<Shot>, n: nat)
    requires n <= |shots|
    ensures IsSubsequence(SelectBest(shots, n).1, shots)
    decreases n
  {
    if n == 0 {
      SubsequenceRefl(shots);
    } else {
      var i := MinIndex(Factors(shots));
      var rest := shots[..i] + shots[i + 1..];
      SelectBestLeftInOrder(rest, n - 1);
      DeleteAt(shots, i);
      SubsequenceTrans(SelectBest(rest, n - 1).1, rest, shots);
    }
  }

  /** `get_best_shots`: the returned list, and the caller's list as the
      function leaves it. Up to `Recommendations` shots are returned as they
      are; otherwise the best `Recommendations` are taken out of the
      caller's list. */
  function GetBestShots(shots: seq<Shot>): (r: (seq<Shot>, seq<Shot>))
    ensures |shots| <= Recommendations ==> r.0 == shots && r.1 == shots
    ensures Recommendations < |shots| ==> |r.0| == Recommendations && |r.1| == |shots| - Recommendations
    ensures Recommendations < |shots| ==> multiset(r.0) + multiset(r.1) == multiset(shots)
    ensures forall j, k :: 0 <= j < k < |r.0| && Recommendations < |shots| ==> Factor(r.0[j]) <= Factor(r.0[k])
    ensures forall j, k :: 0 <= j < |r.0| && 0 <= k < |r.1| && Recommendations < |shots| ==>
              Factor(r.0[j]) <= Factor(r.1[k])
  {
    if |shots| <= Recommendations then (shots, shots)
    else SelectBest(shots, Recommendations)
  }

  /** Every returned shot scores no worse than any shot left behind. */
  lemma GetBestShotsDisplaced(shots: seq<Shot>, x: Shot)
    requires Recommendations < |shots|
    requires multiset(shots)[x] > multiset(GetBestShots(shots).0)[x]
    ensures forall j :: 0 <= j < |GetBestShots(shots).0| ==> Factor(GetBestShots(shots).0[j]) <= Factor(x)
  {
  }

  /** Each of the returned shots, when more than `Recommendations` are
      given, is the earliest lowest-scoring shot left by the picks before
      it. */
  lemma GetBestShotsChoice(shots: seq<Shot>, k: nat)
    requires Recommendations < |shots| && k < Recommendations
    ensures var left := SelectBest(shots, k).1;
            && |left| == |shots| - k
            && GetBestShots(shots).0[k] == left[MinIndex(Factors(left))]
  {
    EachChoice(shots, Recommendations, k);
  }

  /** The caller's list keeps its order through the deletions. */
  lemma GetBestShotsLeftInOrder(shots: seq<Shot>)
    ensures IsSubsequence(GetBestShots(shots).1, shots)
  {
    if |shots| <= Recommendations {
      SubsequenceRefl(shots);
    } else {
      SelectBestLeftInOrder(shots, Recommendations);
    }
  }
}

=== FILE: reflection.dfy ===
/** Bank-shot geometry: the reflection point on a cushion is found by mirroring
    the destination across the cushion line and intersecting the straight line
    from the start to that mirror image with the cushion line. */
module Reflection {
  import opened Geometry

  /** Reflection of a point across the line of an axis-aligned cushion. */
  function Mirror(c: Cushion, p: Point): Point
    requires AxisAligned(c)
  {
    if Horizontal(c) then Point(p.x, 2 * c.a.y - p.y) else Point(2 * c.a.x - p.x, p.y)
  }

  /** Mirroring twice gives the point back, and exactly the points on the
      cushion line are their own mirror image. */
  lemma MirrorInvolution(c: Cushion, p: Point)
    requires AxisAligned(c)
    ensures Mirror(c, Mirror(c, p)) == p
    ensures Mirror(c, p) == p <==> OnLine(c, ToReal(p))
  {
  }

  /** The first-segment direction of a bank shot: from the start to the
      mirrored destination. */
  function AimX(c: Cushion, start: Point, end: Point): int
    requires AxisAligned(c)
  {
    Mirror(c, end).x - start.x
  }

  function AimY(c: Cushion, start: Point, end: Point): int
    requires AxisAligned(c)
  {
    Mirror(c, end).y - start.y
  }

  /** `q` lies on the line through `start` with direction (dx, dy). */
  predicate OnAim(start: Point, dx: int, dy: int, q: RPoint) {
    (q.x - start.x as real) * dy as real == (q.y - start.y as real) * dx as real
  }

  /** The path start -> e -> end is aimed as a reflection at cushion `c`:
      `e` is on the cushion line and the outgoing line is the mirror image of
      the incoming line (stated without division, as a vanishing cross
      product of the incoming direction and the mirrored outgoing one). This
      alone does not make the ball bounce: with start and end on opposite
      sides of the line the path crosses it; `ReflectsBounces` gives the
      bounce when both lie strictly on the same side. */
  predicate Reflects(c: Cushion, start: RPoint, e: RPoint, end: RPoint)
    requires AxisAligned(c)
  {
    && OnLine(c, e)
    && if Horizontal(c) then
         (e.x - start.x) * (e.y - end.y) == (e.y - start.y) * (end.x - e.x)
       else
         (e.y - start.y) * (e.x - end.x) == (e.x - start.x) * (end.y - e.y)
  }

  /** With start and end strictly on the same side of the cushion line, a
      path aimed as a reflection bounces: the motion across the cushion
      reverses and the motion along it keeps its direction. */
  lemma ReflectsBounces(c: Cushion, start: RPoint, e: RPoint, end: RPoint)
    requires AxisAligned(c) && Reflects(c, start, e, end)
    requires Horizontal(c) ==> (start.y - e.y) * (end.y - e.y) > 0.0
    requires !Horizontal(c) ==> (start.x - e.x) * (end.x - e.x) > 0.0
    ensures Horizontal(c) ==>
              (e.y - start.y) * (end.y - e.y) < 0.0 && (e.x - start.x) * (end.x - e.x) >= 0.0
    ensures !Horizontal(c) ==>
              (e.x - start.x) * (end.x - e.x) < 0.0 && (e.y - start.y) * (end.y - e.y) >= 0.0
  {
    if Horizontal(c) {
      BounceSigns(start.x, start.y, e.x, e.y, end.x, end.y);
    } else {
      BounceSigns(start.y, start.x, e.y, e.x, end.y, end.x);
    }
  }

  /** The sign argument behind `ReflectsBounces`, on coordinates along (`a`)
      and across (`b`) the cushion: if the mirrored outgoing direction is
      parallel to the incoming one and start and end lie on the same side,
      the motion across reverses and the motion along keeps its sign. */
  lemma BounceSigns(sa: real, sb: real, ea: real, eb: real, ta: real, tb: real)
    requires (ea - sa) * (eb - tb) == (eb - sb) * (ta - ea)
    requires (sb - eb) * (tb - eb) > 0.0
    ensures (eb - sb) * (tb - eb) < 0.0 && (ea - sa) * (ta - ea) >= 0.0
  {
    var a, b, p, q := ea - sa, eb - sb, ta - ea, tb - eb;
    assert a * -q == b * p by {
      assert eb - tb == -q;
    }
    assert (-b) * q > 0.0 by {
      assert sb - eb == -b;
    }
    assert (a * p) * ((-b) * q) == (b * p) * (b * p) by {
      calc {
        (a * p) * ((-b) * q);
        (a * -q) * (b * p);
        (b * p) * (b * p);
      }
    }
    if a * p < 0.0 {
      NegTimesPos(a * p, (-b) * q);
    }
  }

  /** A negative times a positive is negative. */
  lemma NegTimesPos(x: real, y: real)
    requires x < 0.0 < y
    ensures x * y < 0.0
  {
  }

  /** `find_edge_point`: the point on the line of cushion `c` at which a ball
      going from `start` to `end` is aimed as a reflection, or `None` when the
      aiming direction runs parallel to the cushion (a zero direction counts
      as parallel to a vertical cushion only). The branches and the slope/intercept arithmetic follow the
      program; its final `None` for a cushion that is neither horizontal nor
      vertical cannot be reached, and such a cushion is excluded because the
      program fails on it before computing anything. */
  function FindEdgePoint(c: Cushion, start: Point, end: Point): (r: Option<RPoint>)
    requires AxisAligned(c)
    ensures Proper(c) && Horizontal(c) ==>
              (r.None? <==> AimY(c, start, end) == 0 && AimX(c, start, end) != 0)
    ensures Proper(c) && !Horizontal(c) ==> (r.None? <==> AimX(c, start, end) == 0)
    ensures r.Some? ==> OnAim(start, AimX(c, start, end), AimY(c, start, end), r.value)
    ensures r.Some? && Proper(c) ==> OnLine(c, r.value)
  {
    var m := Mirror(c, end);
    var dx := m.x - start.x;
    var dy := m.y - start.y;
    if dx == 0 then
      if Horizontal(c) then Some(RPoint(start.x as real, c.a.y as real)) else None
    else if dy == 0 then
      if Vertical(c) then Some(RPoint(c.a.x as real, start.y as real)) else None
    else
      var slope := dy as real / dx as real;
      var intercept := start.y as real - slope * start.x as real;
      if Horizontal(c) then
        HorizontalHit(start.x as real, start.y as real, c.a.y as real, dx as real, dy as real);
        Some(RPoint((c.a.y as real - intercept) / slope, c.a.y as real))
      else
        VerticalHit(start.x as real, start.y as real, c.a.x as real, dx as real, dy as real);
        Some(RPoint(c.a.x as real, slope * c.a.x as real + intercept))
  }

  /** Slope/intercept intersection with a horizontal line y = y3 lies on the aim line. */
  lemma HorizontalHit(x1: real, y1: real, y3: real, dx: real, dy: real)
    requires dx != 0.0 && dy != 0.0
    ensures var slope := dy / dx;
            ((y3 - (y1 - slope * x1)) / slope - x1) * dy == (y3 - y1) * dx
  {
  }

  /** Slope/intercept intersection with a vertical line x = x3 lies on the aim line. */
  lemma VerticalHit(x1: real, y1: real, x3: real, dx: real, dy: real)
    requires dx != 0.0 && dy != 0.0
    ensures var slope := dy / dx;
            (x3 - x1) * dy == (slope * x3 + (y1 - slope * x1) - y1) * dx
  {
  }

  /** On a proper cushion, the point returned is the only point that lies both
      on the cushion line and on the aiming line (when the aim is not the zero
      vector): `find_edge_point` really computes the intersection. */
  lemma {:induction false} EdgePointIsIntersection(c: Cushion, start: Point, end: Point, q: RPoint)
    requires Proper(c)
    requires FindEdgePoint(c, start, end).Some?
    requires AimX(c, start, end) != 0 || AimY(c, start, end) != 0
    requires OnLine(c, q) && OnAim(start, AimX(c, start, end), AimY(c, start, end), q)
    ensures q == FindEdgePoint(c, start, end).value
  {
  }

  /** The bank path start -> found point -> end is aimed as a reflection
      at the cushion. */
  lemma {:induction false} EdgePointReflects(c: Cushion, start: Point, end: Point)
    requires Proper(c)
    requires FindEdgePoint(c, start, end).Some?
    ensures Reflects(c, ToReal(start), FindEdgePoint(c, start, end).value, ToReal(end))
  {
  }
}

=== FILE: shot.dfy ===
/** One candidate shot: the target ball's path to a pocket, the cue ball's
    path to the ghost-ball position, the cut angle and the total travel
    length. Every path endpoint is an integer point; edge and ghost points are
    truncated toward zero before they become endpoints. */
module Shots {
  import opened Geometry
  import opened Layout
  import opened ShotInit
  import opened Balls

  /** A constructed shot. Its fields never change after construction. */
  datatype Shot = Shot(target: Path, cue: Path, ghostBall: RPoint, angle: real, length: real) {
    /** `get_ghost`: the ghost-ball position truncated to integers. */
    function Ghost(): (p: Point)
      ensures 0.0 <= ghostBall.x ==> p.x as real <= ghostBall.x < p.x as real + 1.0
      ensures 0.0 <= ghostBall.y ==> p.y as real <= ghostBall.y < p.y as real + 1.0
      ensures ghostBall.x < 0.0 ==> p.x as real - 1.0 < ghostBall.x <= p.x as real
      ensures ghostBall.y < 0.0 ==> p.y as real - 1.0 < ghostBall.y <= p.y as real
    {
      TruncPoint(ghostBall)
    }

    /** How many of the two paths bounce off a cushion. */
    function BankCount(): (n: nat)
      ensures n <= 2
      ensures n == 0 <==> target.Direct? && cue.Direct?
    {
      (if target.Banked? then 1 else 0) + (if cue.Banked? then 1 else 0)
    }
  }

  /** A path from `from` to `to`, through the truncated edge point when one
      is given. */
  function BuildPath(from: Point, edge: Option<RPoint>, to: Point): (p: Path)
    ensures p.Start() == from && p.End() == to
    ensures p.Joined()
    ensures p.Banked? <==> edge.Some?
    ensures edge.Some? ==> p.First().end == TruncPoint(edge.value)
  {
    match edge
    case None => Direct(Segment(from, to))
    case Some(e) => Banked(Segment(from, TruncPoint(e)), Segment(TruncPoint(e), to))
  }

  /** Sum of the lengths of a list of segments. */
  function TotalLength(o: Oracle, segs: seq<Segment>): (r: real)
    requires o.Valid()
    ensures 0.0 <= r
    ensures r == 0.0 <==> forall i :: 0 <= i < |segs| ==> segs[i].start == segs[i].end
  {
    if segs == [] then 0.0
    else
      SegLengthZero(o, segs[0]);
      var rest := TotalLength(o, segs[1..]);
      assert forall i :: 1 <= i < |segs| ==> segs[i] == segs[1..][i - 1];
      SegLength(o, segs[0]) + rest
  }

  /** A segment has length zero exactly when it is a single point. */
  lemma SegLengthZero(o: Oracle, s: Segment)
    requires o.Valid()
    ensures SegLength(o, s) == 0.0 <==> s.start == s.end
  {
    SqrtZero(o, SqDist(s.start, s.end) as real);
    SubZero(s.end, s.start);
  }

  /** Lengths add up over concatenation. */
  lemma {:induction false} TotalLengthAppend(o: Oracle, a: seq<Segment>, b: seq<Segment>)
    requires o.Valid()
    ensures TotalLength(o, a + b) == TotalLength(o, a) + TotalLength(o, b)
  {
    if a == [] {
      assert a + b == b;
    } else {
      assert (a + b)[1..] == a[1..] + b;
      TotalLengthAppend(o, a[1..], b);
    }
  }

  /** The length of one path: one segment or the sum of two. */
  function PathLength(o: Oracle, p: Path): (r: real)
    requires o.Valid()
    ensures r == TotalLength(o, p.Segments())
  {
    if p.Direct? then
      assert p.Segments()[1..] == [];
      SegLength(o, p.only)
    else
      assert p.Segments()[1..] == [p.second] && [p.second][1..] == [];
      SegLength(o, p.first) + SegLength(o, p.second)
  }

  /** The start of the cue ball's final approach: the truncated cushion point
      of a banked cue path, otherwise the cue ball itself. */
  function CueStart(white: Ball, edgeWhite: Option<RPoint>): Point {
    if edgeWhite.Some? then TruncPoint(edgeWhite.value) else white.Coordinates()
  }

  /** Where the target ball is first sent: the truncated cushion point of a
      banked target path, otherwise the pocket. */
  function AimPoint(hole: Pocket, edgeTarget: Option<RPoint>): Point {
    if edgeTarget.Some? then TruncPoint(edgeTarget.value) else hole.pos
  }

  /** The truncated ghost position for a target aim (the target itself when
      the aim is degenerate and no ghost exists). */
  function GhostOf(o: Oracle, target: Ball, hole: Pocket, edgeTarget: Option<RPoint>): Point
    requires o.Valid()
  {
    var t := target.Coordinates();
    var aim := AimPoint(hole, edgeTarget);
    if aim == t then t else TruncPoint(GhostPoint(o, Segment(t, aim)))
  }

  /** The conditions under which building the shot divides by zero: the
      target is already at its aim point, or the cue ball's final approach
      starts on the truncated ghost position. */
  predicate Degenerate(o: Oracle, white: Ball, target: Ball, hole: Pocket,
                       edgeTarget: Option<RPoint>, edgeWhite: Option<RPoint>)
    requires o.Valid()
  {
    || AimPoint(hole, edgeTarget) == target.Coordinates()
    || CueStart(white, edgeWhite) == GhostOf(o, target, hole, edgeTarget)
  }

  /** Everything a successfully constructed shot promises about its parts. */
  predicate WellFormed(o: Oracle, s: Shot, white: Ball, target: Ball, hole: Pocket,
                       edgeTarget: Option<RPoint>, edgeWhite: Option<RPoint>)
    requires o.Valid()
  {
    && s.target.Start() == target.Coordinates() && s.target.End() == hole.pos
    && s.target.Joined() && (s.target.Banked? <==> edgeTarget.Some?)
    && s.target.First().end == AimPoint(hole, edgeTarget)
    && s.cue.Start() == white.Coordinates() && s.cue.End() == s.Ghost()
    && s.cue.Joined() && (s.cue.Banked? <==> edgeWhite.Some?)
    && s.cue.Last().start == CueStart(white, edgeWhite)
    && RSqDist(s.ghostBall, ToReal(target.Coordinates())) == (BallDiameter * BallDiameter) as real
    && Behind(s.ghostBall, s.target.First())
    && 0.0 <= s.angle <= 180.0
    && CueVector(s.cue) != Vec(0, 0) && TargetVector(s.target) != Vec(0, 0)
    && s.angle == o.degrees(RawCosine(o, s.cue, s.target))
    && s.length == TotalLength(o, s.target.Segments() + s.cue.Segments())
  }

  /** `Shot.__init__`: build the target path (through `edgeTarget` when given),
      place the ghost ball behind the target along the first target segment,
      build the cue path to the truncated ghost (through `edgeWhite` when
      given), then compute the cut angle and the total length. */
  function MakeShot(o: Oracle, white: Ball, target: Ball, hole: Pocket,
                    edgeTarget: Option<RPoint>, edgeWhite: Option<RPoint>): (r: Result<Shot>)
    requires o.Valid()
    ensures r.Err? <==> Degenerate(o, white, target, hole, edgeTarget, edgeWhite)
    ensures r.Ok? ==> WellFormed(o, r.value, white, target, hole, edgeTarget, edgeWhite)
    ensures r.Ok? ==> r.value.target == BuildPath(target.Coordinates(), edgeTarget, hole.pos)
    ensures r.Ok? ==> r.value.ghostBall == GhostPoint(o, r.value.target.First())
    ensures r.Ok? ==> r.value.Ghost() == GhostOf(o, target, hole, edgeTarget)
  {
    var targetPath := BuildPath(target.Coordinates(), edgeTarget, hole.pos);
    var g :- GetGhost(o, targetPath.First());
    var cuePath := BuildPath(white.Coordinates(), edgeWhite, TruncPoint(g));
    var angle :- GetCutAngle(o, cuePath, targetPath);
    TotalLengthAppend(o, targetPath.Segments(), cuePath.Segments());
    Ok(Shot(targetPath, cuePath, g, angle, PathLength(o, targetPath) + PathLength(o, cuePath)))
  }
}

=== FILE: shot_init.dfy ===
/** Ghost-ball placement and cut-angle computation for one candidate shot. */
module ShotInit {
  import opened Geometry

  const BallRadius: int := 23
  const BallDiameter: int := BallRadius * 2

  /** `g` lies on the line of `aim`, on the far side of its start point from
      its end point: the cue ball must arrive there to send the object ball
      along `aim`. */
  predicate Behind(g: RPoint, aim: Segment) {
    var t := ToReal(aim.start);
    var dx := (aim.end.x - aim.start.x) as real;
    var dy := (aim.end.y - aim.start.y) as real;
    && (g.x - t.x) * dy == (g.y - t.y) * dx
    && (g.x - t.x) * dx + (g.y - t.y) * dy < 0.0
  }

  /** The ghost-ball position for a non-degenerate `aim`, computed as the
      program does: unit vector by division by the length, then a step of one
      ball diameter back from the target. */
  function GhostPoint(o: Oracle, aim: Segment): RPoint
    requires o.Valid() && aim.start != aim.end
  {
    var d := Sub(aim.end, aim.start);
    SubZero(aim.end, aim.start);
    var distance := Norm(o, d);
    var unitX := d.dx as real / distance;
    var unitY := d.dy as real / distance;
    RPoint(aim.start.x as real - unitX * BallDiameter as real,
           aim.start.y as real - unitY * BallDiameter as real)
  }

  /** `get_ghost`: the point one ball diameter behind the target along the
      reversed direction of `aim` (target -> hole or target -> cushion). The
      program divides by the length of `aim`, which is zero exactly when its
      two ends coincide; that case raises. */
  function GetGhost(o: Oracle, aim: Segment): (r: Result<RPoint>)
    requires o.Valid()
    ensures r.Err? <==> aim.start == aim.end
    ensures r.Ok? ==> RSqDist(r.value, ToReal(aim.start)) == (BallDiameter * BallDiameter) as real
    ensures r.Ok? ==> Behind(r.value, aim)
  {
    SubZero(aim.end, aim.start);
    if aim.start == aim.end then
      Err(DivisionByZero)
    else
      GhostPointFacts(o, aim);
      Ok(GhostPoint(o, aim))
  }

  lemma GhostPointFacts(o: Oracle, aim: Segment)
    requires o.Valid() && aim.start != aim.end
    ensures RSqDist(GhostPoint(o, aim), ToReal(aim.start)) == (BallDiameter * BallDiameter) as real
    ensures Behind(GhostPoint(o, aim), aim)
  {
  }

  /** Python's `max(-1, min(1, x))`. */
  function Clamp(x: real): (r: real)
    ensures -1.0 <= r <= 1.0
    ensures -1.0 <= x <= 1.0 ==> r == x
  {
    if x > 1.0 then 1.0 else if x < -1.0 then -1.0 else x
  }

  /** The cue ball's final approach segment: the second segment of a banked
      cue path, otherwise its only one. */
  function CueApproach(cue: Path): Segment {
    cue.Last()
  }

  /** From the ghost ball back towards where the cue ball comes from. */
  function CueVector(cue: Path): Vec {
    Sub(CueApproach(cue).start, CueApproach(cue).end)
  }

  /** From the target ball towards the first waypoint of its path. */
  function TargetVector(target: Path): Vec {
    Sub(target.First().end, target.First().start)
  }

  /** The cosine the program feeds to `acos` before clamping: the dot
      product of the two vectors over the product of their lengths. */
  function Cosine(o: Oracle, u: Vec, v: Vec): real
    requires o.Valid()
    requires u != Vec(0, 0) && v != Vec(0, 0)
  {
    ProductZero(Norm(o, u), Norm(o, v));
    Dot(u, v) as real / (Norm(o, u) * Norm(o, v))
  }

  function RawCosine(o: Oracle, cue: Path, target: Path): real
    requires o.Valid()
    requires CueVector(cue) != Vec(0, 0) && TargetVector(target) != Vec(0, 0)
  {
    Cosine(o, CueVector(cue), TargetVector(target))
  }

  /** `get_cut_angle`: the angle in degrees between the reversed cue approach
      and the target's first direction; 180 is a straight shot. A zero vector
      on either side makes the product of the lengths zero, and the division
      raises. The clamp the program applies never changes the cosine. */
  function GetCutAngle(o: Oracle, cue: Path, target: Path): (r: Result<real>)
    requires o.Valid()
    ensures r.Err? <==> CueApproach(cue).start == CueApproach(cue).end || target.First().start == target.First().end
    ensures r.Ok? ==> 0.0 <= r.value <= 180.0
    ensures r.Ok? ==> r.value == o.degrees(RawCosine(o, cue, target))
  {
    SubZero(CueApproach(cue).start, CueApproach(cue).end);
    SubZero(target.First().end, target.First().start);
    if CueVector(cue) == Vec(0, 0) || TargetVector(target) == Vec(0, 0) then
      Err(DivisionByZero)
    else
      CosineInRange(o, CueVector(cue), TargetVector(target));
      Ok(o.degrees(Clamp(RawCosine(o, cue, target))))
  }

  lemma ProductZero(a: real, b: real)
    requires 0.0 <= a && 0.0 <= b
    ensures a * b == 0.0 <==> a == 0.0 || b == 0.0
  {
  }

  /** With exact arithmetic the clamp never bites: by the Cauchy-Schwarz
      inequality the raw cosine of two nonzero vectors already lies in
      [-1, 1]. */
  lemma CosineInRange(o: Oracle, u: Vec, v: Vec)
    requires o.Valid()
    requires u != Vec(0, 0) && v != Vec(0, 0)
    ensures -1.0 <= Cosine(o, u, v) <= 1.0
  {
    var m1 := Norm(o, u);
    var m2 := Norm(o, v);
    assert Cosine(o, u, v) == Dot(u, v) as real / (m1 * m2);
    CauchySchwarz(u, v);
    CosineBound(Dot(u, v), SqLen(u.dx, u.dy), SqLen(v.dx, v.dy), m1, m2);
  }

  /** The real-arithmetic core of `CosineInRange`. */
  lemma CosineBound(dot: int, n1: int, n2: int, m1: real, m2: real)
    requires 0.0 < m1 && 0.0 < m2
    requires m1 * m1 == n1 as real && m2 * m2 == n2 as real
    requires dot * dot <= n1 * n2
    ensures -1.0 <= dot as real / (m1 * m2) <= 1.0
  {
  }

  /** (u . v)^2 <= |u|^2 |v|^2 over the integers. */
  lemma CauchySchwarz(u: Vec, v: Vec)
    ensures Dot(u, v) * Dot(u, v) <= SqLen(u.dx, u.dy) * SqLen(v.dx, v.dy)
  {
    assert SqLen(u.dx, u.dy) * SqLen(v.dx, v.dy) - Dot(u, v) * Dot(u, v)
        == (u.dx * v.dy - u.dy * v.dx) * (u.dx * v.dy - u.dy * v.dx);
  }
}

=== FILE: table.dfy ===
/** The shot pipeline of the table: generate the candidate shots for the
    target balls, keep the playable ones, and reduce them to the
    recommendations. Only the shot state matters here; images, detection and
    console output are not part of this model. */
module PoolTable {
  import opened Geometry
  import opened Layout
  import opened Balls
  import opened Shots
  import opened Enumeration
  import opened Collecting
  import opened Filters
  import opened Ranking
  import opened Ordering

  /** The detected balls and the current list of shots. */
  datatype Table = Table(balls: seq<Ball>, shots: seq<Shot>)

  /** The ball radius used by the obstruction test during validation. */
  const ObstacleRadius: int := 23

  /** Shots with a cut angle at or below this are discarded. */
  const MinAngle: real := 120.0

  /** The cue ball: the first ball, in list order, typed "white". */
  function FirstWhite(balls: seq<Ball>): (r: Option<Ball>)
    ensures r.None? <==> forall i :: 0 <= i < |balls| ==> !balls[i].HasType("white")
    ensures r.Some? ==> exists i :: 0 <= i < |balls| && r.value == balls[i] && balls[i].HasType("white")
                          && forall j :: 0 <= j < i ==> !balls[j].HasType("white")
  {
    if balls == [] then None
    else if balls[0].HasType("white") then Some(balls[0])
    else
      assert forall i :: 1 <= i < |balls| ==> balls[i] == balls[1..][i - 1];
      var r := FirstWhite(balls[1..]);
      if r.Some? then
        var i :| 0 <= i < |balls[1..]| && r.value == balls[1..][i] && balls[1..][i].HasType("white")
                 && forall j :: 0 <= j < i ==> !balls[1..][j].HasType("white");
        assert r.value == balls[i + 1];
        r
      else
        r
  }

  /** A ball is shot at when it is not typed "white" and the type filter is
      "all" or names its type. An uncategorised ball has no type, so only
      "all" selects it. */
  predicate IsTarget(b: Ball, filter: string) {
    !b.HasType("white") && (filter == "all" || b.HasType(filter))
  }

  /** What the filter selects, in terms of ball kinds: "all" selects every
      ball not known to be white; the name of a kind other than white selects
      exactly the balls of that kind; "white" selects nothing. */
  lemma TargetKinds(b: Ball, k: BallKind)
    ensures IsTarget(b, "all") <==> b.kind != Some(White)
    ensures k != White ==> (IsTarget(b, KindName(k)) <==> b.kind == Some(k))
    ensures !IsTarget(b, KindName(White))
  {
  }

  /** The target balls, in list order. */
  function Targets(balls: seq<Ball>, filter: string): (r: seq<Ball>)
    ensures forall k :: 0 <= k < |r| ==> r[k] in balls && IsTarget(r[k], filter)
    ensures forall k :: 0 <= k < |balls| && IsTarget(balls[k], filter) ==> balls[k] in r
  {
    Filter((b: Ball) => IsTarget(b, filter), balls)
  }

  /** The target balls keep the order they have on the table. */
  lemma TargetsInOrder(balls: seq<Ball>, filter: string)
    ensures IsSubsequence(Targets(balls, filter), balls)
  {
    FilterSubsequence((b: Ball) => IsTarget(b, filter), balls);
  }

  /** Every copy of a target ball is kept, and nothing else. */
  lemma TargetsCounts(balls: seq<Ball>, filter: string, b: Ball)
    ensures multiset(Targets(balls, filter))[b] == if IsTarget(b, filter) then multiset(balls)[b] else 0
  {
    FilterCounts((b: Ball) => IsTarget(b, filter), balls, b);
  }

  /** The candidate generation for one target ball, against a fixed cue
      ball. */
  function ShotsFor(o: Oracle, white: Ball): Ball -> Result<seq<Shot>>
    requires o.Valid()
  {
    (b: Ball) => GetShots(o, white, b)
  }

  /** Every target ball that generates successfully yields 90 shots. */
  lemma ShotsForUniform(o: Oracle, white: Ball, targets: seq<Ball>)
    requires o.Valid()
    ensures Uniform(ShotsFor(o, white), targets, 90)
  {
    forall j | 0 <= j < |targets| && ShotsFor(o, white)(targets[j]).Ok?
      ensures |ShotsFor(o, white)(targets[j]).value| == 90
    {
      GetShotsOrder(o, white, targets[j], 0);
    }
  }

  /** `Table.calculate_shots`: with no balls or no cue ball nothing happens;
      otherwise the 90 candidates of every target ball, in list order, are
      appended to the shots. A degenerate geometry in any of them aborts the
      call. */
  function CalculateShots(o: Oracle, t: Table, filter: string): (r: Result<Table>)
    requires o.Valid()
    ensures t.balls == [] || FirstWhite(t.balls).None? ==> r == Ok(t)
    ensures r.Err? <==>
              && t.balls != [] && FirstWhite(t.balls).Some?
              && exists i :: 0 <= i < |Targets(t.balls, filter)| &&
                   GetShots(o, FirstWhite(t.balls).value, Targets(t.balls, filter)[i]).Err?
    ensures r.Ok? ==> r.value.balls == t.balls && t.shots <= r.value.shots
  {
    if t.balls == [] then Ok(t)
    else
      match FirstWhite(t.balls)
      case None => Ok(t)
      case Some(white) =>
        var added :- Collect(ShotsFor(o, white), Targets(t.balls, filter));
        Ok(t.(shots := t.shots + added))
  }

  /** After a successful generation with a cue ball present, the new shots
      are 90 per target ball, and target `i`'s shots sit at offset 90i past
      the old ones. */
  lemma CalculateShotsLayout(o: Oracle, t: Table, filter: string, i: nat)
    requires o.Valid()
    requires t.balls != [] && FirstWhite(t.balls).Some?
    requires CalculateShots(o, t, filter).Ok?
    requires i < |Targets(t.balls, filter)|
    ensures var shots := CalculateShots(o, t, filter).value.shots;
            var targets := Targets(t.balls, filter);
            var white := FirstWhite(t.balls).value;
            && |shots| == |t.shots| + 90 * |targets|
            && GetShots(o, white, targets[i]).Ok?
            && shots[|t.shots| + 90 * i .. |t.shots| + 90 * i + 90] == GetShots(o, white, targets[i]).value
  {
    var white := FirstWhite(t.balls).value;
    var targets := Targets(t.balls, filter);
    var gen := ShotsFor(o, white);
    CalculateShotsAppends(o, t, filter);
    ShotsForUniform(o, white, targets);
    CollectAfter(t.shots, gen, targets, 90, i);
    var all := t.shots + Collect(gen, targets).value;
    var lo := |t.shots| + 90 * i;
    assert all[lo .. lo + 90] == gen(targets[i]).value;
    assert gen(targets[i]) == GetShots(o, white, targets[i]);
    assert CalculateShots(o, t, filter).value.shots == all;
  }

  /** With a cue ball present, a successful generation appends the collected
      shots of the target balls. */
  lemma CalculateShotsAppends(o: Oracle, t: Table, filter: string)
    requires o.Valid()
    requires t.balls != [] && FirstWhite(t.balls).Some?
    requires CalculateShots(o, t, filter).Ok?
    ensures Collect(ShotsFor(o, FirstWhite(t.balls).value), Targets(t.balls, filter)).Ok?
    ensures CalculateShots(o, t, filter).value.shots
         == t.shots + Collect(ShotsFor(o, FirstWhite(t.balls).value), Targets(t.balls, filter)).value
  {
  }

  /** The segments of a shot in the order validation lists them: the first
      target segment, the first cue segment, then the second target segment
      and the second cue segment of banked paths. */
  function ShotLines(s: Shot): (r: seq<Segment>)
    ensures |r| == |s.target.Segments()| + |s.cue.Segments()|
    ensures forall seg :: seg in r <==> seg in s.target.Segments() + s.cue.Segments()
  {
    match (s.target, s.cue)
    case (Direct(t1), Direct(w1)) =>
      assert s.target.Segments() + s.cue.Segments() == [t1, w1];
      [t1, w1]
    case (Banked(t1, t2), Direct(w1)) =>
      assert s.target.Segments() + s.cue.Segments() == [t1, t2, w1];
      [t1, w1, t2]
    case (Direct(t1), Banked(w1, w2)) =>
      assert s.target.Segments() + s.cue.Segments() == [t1, w1, w2];
      [t1, w1, w2]
    case (Banked(t1, t2), Banked(w1, w2)) =>
      assert s.target.Segments() + s.cue.Segments() == [t1, t2, w1, w2];
      [t1, w1, t2, w2]
  }

  /** A shot survives validation: no segment is obstructed by a ball, the
      cut angle exceeds 120 degrees, and no segment starts in a pocket
      mouth. */
  predicate IsValid(o: Oracle, balls: seq<Ball>, s: Shot)
    requires o.Valid()
  {
    var lines := ShotLines(s);
    && (forall k :: 0 <= k < |lines| ==> !IsShotBlocked(o, lines[k], balls, ObstacleRadius))
    && s.angle > MinAngle
    && (forall k :: 0 <= k < |lines| ==> IsEdgePossible(lines[k]))
  }

  /** A ball centred at `c` leaves room for a segment: it sits on one of
      the segment's ends, or at least `2 * ObstacleRadius - 2` away from
      it. */
  predicate Leaves(c: Point, seg: Segment) {
    var room := (2 * ObstacleRadius - 2) as real;
    c == seg.start || c == seg.end || room * room <= BallShotDistSq(c, seg.start, seg.end)
  }

  /** A segment passes validation, on exact squared distances: every ball
      leaves room for it, and it starts outside every pocket mouth. */
  predicate Clear(balls: seq<Ball>, seg: Segment) {
    && (forall i :: 0 <= i < |Pockets| ==> !InMouth(Pockets[i], seg.start))
    && forall j :: 0 <= j < |balls| ==> Leaves(balls[j].Coordinates(), seg)
  }

  /** The obstruction test of validation on exact squared distances. */
  lemma NotBlockedMeans(o: Oracle, balls: seq<Ball>, seg: Segment)
    requires o.Valid()
    ensures !IsShotBlocked(o, seg, balls, ObstacleRadius) <==>
              forall j :: 0 <= j < |balls| ==> Leaves(balls[j].Coordinates(), seg)
  {
    forall j | 0 <= j < |balls|
      ensures Blocks(o, seg, balls[j], ObstacleRadius) <==> !Leaves(balls[j].Coordinates(), seg)
    {
      BlocksBySquares(o, seg, balls[j], ObstacleRadius);
    }
  }

  /** The two per-segment tests of validation together are `Clear`. */
  lemma SegmentClear(o: Oracle, balls: seq<Ball>, seg: Segment)
    requires o.Valid()
    ensures !IsShotBlocked(o, seg, balls, ObstacleRadius) && IsEdgePossible(seg) <==> Clear(balls, seg)
  {
    NotBlockedMeans(o, balls, seg);
  }

  /** What validity means: a cut angle above 120 degrees and every segment of
      both paths clear. */
  lemma ValidMeans(o: Oracle, balls: seq<Ball>, s: Shot)
    requires o.Valid()
    ensures IsValid(o, balls, s) <==>
              && s.angle > MinAngle
              && forall seg :: seg in s.target.Segments() + s.cue.Segments() ==> Clear(balls, seg)
  {
    var lines := ShotLines(s);
    forall k | 0 <= k < |lines|
      ensures !IsShotBlocked(o, lines[k], balls, ObstacleRadius) && IsEdgePossible(lines[k]) <==> Clear(balls, lines[k])
    {
      SegmentClear(o, balls, lines[k]);
    }
  }

  /** `Table.validate_shots`: keep the valid shots. */
  function ValidateShots(o: Oracle, t: Table): (r: Table)
    requires o.Valid()
    ensures r.balls == t.balls
    ensures t.shots == [] ==> r == t
    ensures forall k :: 0 <= k < |r.shots| ==> r.shots[k] in t.shots && IsValid(o, t.balls, r.shots[k])
    ensures forall k :: 0 <= k < |t.shots| && IsValid(o, t.balls, t.shots[k]) ==> t.shots[k] in r.shots
  {
    if t.shots == [] then t
    else t.(shots := Filter((s: Shot) => IsValid(o, t.balls, s), t.shots))
  }

  /** Validation keeps the surviving shots in their order. */
  lemma ValidateShotsInOrder(o: Oracle, t: Table)
    requires o.Valid()
    ensures IsSubsequence(ValidateShots(o, t).shots, t.shots)
  {
    if t.shots == [] {
      SubsequenceRefl(t.shots);
    } else {
      FilterSubsequence((s: Shot) => IsValid(o, t.balls, s), t.shots);
    }
  }

  /** Validation keeps every copy of a valid shot and no copy of an
      invalid one. */
  lemma ValidateShotsCounts(o: Oracle, t: Table, s: Shot)
    requires o.Valid()
    ensures multiset(ValidateShots(o, t).shots)[s] == if IsValid(o, t.balls, s) then multiset(t.shots)[s] else 0
  {
    if t.shots != [] {
      FilterCounts((s: Shot) => IsValid(o, t.balls, s), t.shots, s);
    }
  }

  /** Validating twice changes nothing more. */
  lemma ValidateShotsIdempotent(o: Oracle, t: Table)
    requires o.Valid()
    ensures ValidateShots(o, ValidateShots(o, t)) == ValidateShots(o, t)
  {
    var once := ValidateShots(o, t);
    if once.shots != [] {
      FilterExtremes((s: Shot) => IsValid(o, t.balls, s), once.shots);
    }
  }

  /** `Table.calculate_best_shots`: replace the shots with the
      recommendations. */
  function CalculateBestShots(t: Table): (r: Table)
    ensures r.balls == t.balls
    ensures |t.shots| <= Recommendations ==> r == t
    ensures |r.shots| == if |t.shots| < Recommendations then |t.shots| else Recommendations
    ensures multiset(r.shots) <= multiset(t.shots)
    ensures forall j, k :: 0 <= j < k < |r.shots| && Recommendations < |t.shots| ==>
              Factor(r.shots[j]) <= Factor(r.shots[k])
  {
    if t.shots == [] then t
    else t.(shots := GetBestShots(t.shots).0)
  }

  /** The recommendations score no worse than any shot they displace. */
  lemma BestShotsAreBest(t: Table, x: Shot)
    requires Recommendations < |t.shots|
    requires multiset(t.shots)[x] > multiset(CalculateBestShots(t).shots)[x]
    ensures forall j :: 0 <= j < |CalculateBestShots(t).shots| ==> Factor(CalculateBestShots(t).shots[j]) <= Factor(x)
  {
    assert CalculateBestShots(t).shots == GetBestShots(t.shots).0;
    GetBestShotsDisplaced(t.shots, x);
  }
}
